=== FILE: README.md ===
# Simbrain core, modelled in Dafny

This project models four small pieces of the Simbrain neural-network and
simulation kit and proves properties of them.

- **Competitive network** (`Competitive`, competitive.dfy). A winner-take-all group of neurons.
  - Winner selection.
  - The competitive learning rule, with its optional leaky variant and input normalisation.
  - Per-neuron and whole-group weight normalisation.
  - Randomisation followed by normalisation.
  - Adoption of newly created synapses into the group.
  - Field defaults and the two constructors.
- **World object keys** (`KeyCodec`, keycodec.dfy). The odor world turns entities, sensors, effectors and smell-sensor getters into `:`-separated string keys and back.
  - Java's `String.split(":")` is modelled exactly, including the removal of trailing empty pieces.
  - `equalsIgnoreCase` and `Integer.parseInt` are modelled for the inputs that occur here.
- **Turning effector** (`TurningEffector`, turning.dfy). Amounts accumulate between updates. Each update issues a turn of direction × amount and resets the amount.
- **Histogram data handling** (`HistogramData`, histogram.dfy).
  - The checks on a chart request.
  - The in-place sort of each series.
  - The min/max queries guarded by the panel's "sorted" flag.
  - The series loop of `createHistogram`, including which of its checks' and queries' exceptions it catches and which escape.

Shared `Option`/`Result` types are in wrappers.dfy. Doubles are modelled as
`real`. A Java `null` becomes `None`, and a thrown exception becomes `Err`.

The model is purely functional:
- A network is a sequence of neuron records. Each record holds its activation, its total input and its fan-in: a sequence of synapses, each with a source activation and a strength.
- Each Java mutation the model covers becomes a function from the old state to the new one. The one exception is the histogram's in-place sort of the caller's rows, which is returned only as the values of the drawn series. Mutations of state outside the model (layout, labels, listeners) are listed under "## Left out".

## Model

| member | source | states |
|---|---|---|
| Competitive.WinnerScan | src/org/simbrain/network/groups/Competitive.java:149-160 | Continuing the winner scan from any consistent intermediate state (running max, current winner) ends with the reference winner: index 0 when no activation is positive, otherwise the earliest index of the largest activation |
| Competitive.Winner | src/org/simbrain/network/groups/Competitive.java:149-160 | The winner is that reference winner, and it lies in `[0, n)` for a non-empty group |
| Competitive.WinnerUnique | src/org/simbrain/network/groups/Competitive.java:149-160 | At most one index satisfies the winner definition, so the winner of a given activation vector is determined |
| Competitive.WinnerTieBreak | src/org/simbrain/network/groups/Competitive.java:156 | Of two neurons with equal activation, the later one never wins; ties keep the earliest index |
| Competitive.StepTowards | src/org/simbrain/network/groups/Competitive.java:187-188 | A learning step shrinks the distance to the target by the factor 1 − rate, and with a rate in [0, 1] the new strength lies between the old strength and the target |
| Competitive.Learn | src/org/simbrain/network/groups/Competitive.java:179-190 | One synapse's update keeps its source. Its distance to the (optionally normalised) source activation is scaled by 1 − epsilon, and it never overshoots for epsilon in [0, 1] |
| Competitive.LearnAll | src/org/simbrain/network/groups/Competitive.java:179-190 | The fan-in keeps its length, order and sources. Every synapse's gap to its target shrinks by the factor 1 − rate, and with a rate in [0, 1] every new strength lies between the old one and the target |
| Competitive.UpdateNeuron | src/org/simbrain/network/groups/Competitive.java:172-206 | A winner gets the win value and learns with epsilon. A loser gets the lose value, and learns with leaky epsilon only when leaky learning is on. Clamped neurons keep their activation and clamped weights keep their strengths. Total input and sources are never changed |
| Competitive.FirstIdleFrom | src/org/simbrain/network/groups/Competitive.java:167-171 | Gives the first neuron from `i` on that has no fan-in synapse with a positive source activation, or the group size if there is none |
| Competitive.FirstIdleFromUnique | src/org/simbrain/network/groups/Competitive.java:167-171 | That first idle position is the only position with that property |
| Competitive.FirstIdleAfterReplace | src/org/simbrain/network/groups/Competitive.java:163-171 | Updating a neuron that has an active input does not move the position where the loop will stop |
| Competitive.UpdateFrom | src/org/simbrain/network/groups/Competitive.java:163-208 | The update loop from neuron `i` leaves earlier neurons alone. It updates each neuron up to the first idle one, and leaves that neuron and every later neuron unchanged |
| Competitive.Update | src/org/simbrain/network/groups/Competitive.java:146-210 | Neurons before the first idle neuron get the win/lose value, unless clamped. The winner learns with epsilon when it is reached and weights are unclamped. Losers learn with leaky epsilon only under leaky learning. Everything from the first idle neuron on is untouched. Total inputs, fan-in sizes and sources never change |
| Competitive.UpdateStopsAtIdleFirstNeuron | src/org/simbrain/network/groups/Competitive.java:167-171 | When the first neuron has no active input, the update changes nothing at all |
| Competitive.UpdateThreeNeuronExample | src/org/simbrain/network/groups/Competitive.java:146-210 | A concrete three-neuron update: the middle neuron wins, and only its strength moves, from 0.5 to 0.54 |
| Competitive.UpdateSkippingIdleFrom | src/org/simbrain/network/groups/Competitive.java:163-208 | Corrected loop: every neuron from `i` on with an active input is updated, and neurons without one keep their state |
| Competitive.UpdateSkippingIdle | src/org/simbrain/network/groups/Competitive.java:146-210 | Corrected update: idle neurons are skipped, not treated as the end of the loop. The winner learns whenever it has an active input |
| Competitive.UpdatesAgreeWithoutIdleNeuron | src/org/simbrain/network/groups/Competitive.java:163-208 | When no neuron is idle, the update as written and the corrected update give the same result |
| Competitive.IdleNeuronBlocksLaterWinner | src/org/simbrain/network/groups/Competitive.java:167-171 | An idle first neuron stops the written update before the winner learns; the corrected update moves the winner's strength from 0.5 to 0.65 |
| Competitive.DivideStrengths | src/org/simbrain/network/groups/Competitive.java:220-222 | Each divided strength times the factor gives back the original strength, and sources are kept. The summed strength is divided by the factor too |
| Competitive.SumOfQuotients | src/org/simbrain/network/groups/Competitive.java:219-222 | Strengths that are the quotients of others by a nonzero factor sum to the quotient of the others' sum |
| Competitive.NormalizeNeuron | src/org/simbrain/network/groups/Competitive.java:218-222 | A neuron with incoming synapses ends with strengths summing to 1, each proportional to its old value |
| Competitive.NormalizeIncomingWeights | src/org/simbrain/network/groups/Competitive.java:215-224 | Every neuron with incoming synapses has strengths summing to 1 afterwards, each scaled by that neuron's own former sum. Activations, sources and fan-in sizes are kept |
| Competitive.DivideAll | src/org/simbrain/network/groups/Competitive.java:232-237 | Every strength in the group, times the common factor, gives back the old strength. Sources, fan-in lengths, activations and total inputs are kept, and a nonzero factor divides the group total by itself |
| Competitive.GroupSumOfQuotients | src/org/simbrain/network/groups/Competitive.java:258-265 | When every neuron's summed strength is divided by one factor, so is the group total |
| Competitive.GroupSumOfAllIncoming | src/org/simbrain/network/groups/Competitive.java:253-265 | The total accumulated neuron by neuron equals the sum of every incoming strength of the group, taken as one list |
| Competitive.NormalizeAllIncomingWeights | src/org/simbrain/network/groups/Competitive.java:229-238 | With a nonzero group total, the strengths of the whole group sum to 1 afterwards. Every strength is scaled by the same former total |
| Competitive.DivideAllKeepsRatios | src/org/simbrain/network/groups/Competitive.java:232-237 | Dividing by a common factor keeps the ratio between any two strengths in the group |
| Competitive.RandomizeNeuron | src/org/simbrain/network/groups/Competitive.java:245-250 | Every incoming strength is replaced by its own drawn value, and sources and the neuron's other fields are kept |
| Competitive.RandomizeIncomingWeights | src/org/simbrain/network/groups/Competitive.java:243-251 | Each synapse keeps its source and takes the value drawn for its neuron's index and its own position. Activations, total inputs and fan-in lengths are kept |
| Competitive.Randomize | src/org/simbrain/network/groups/Competitive.java:270-273 | After randomise-then-normalise, each neuron with incoming synapses has strengths summing to 1. Each strength is proportional to its drawn value |
| Competitive.Without | src/org/simbrain/network/groups/Competitive.java:101 | Removing a synapse from the root network's list keeps every other synapse, each as many times as before, and drops every copy of the removed one |
| Competitive.SynapseAdded | src/org/simbrain/network/groups/Competitive.java:94-111 | A synapse ending in the group leaves the root network's list, records the group's synapse group as its parent group, and is appended to the group's list, and one group-changed event fires. Every other synapse keeps its recorded parent group. A synapse not ending in the group leaves everything unchanged |
| Competitive.AdoptedOnce | src/org/simbrain/network/groups/Competitive.java:101-103 | An adopted synapse occurs exactly once in the group's list and no longer in the root network's |
| Competitive.ConstructAsWritten | src/org/simbrain/network/groups/Competitive.java:41-83 | As written, the constructor creates the requested neurons with the field defaults but keeps the reported size at 5 |
| Competitive.ConstructAsWrittenMisreportsSize | src/org/simbrain/network/groups/Competitive.java:51 | A network built with 3 neurons reports 5 |
| Competitive.Construct | src/org/simbrain/network/groups/Competitive.java:41-83 | Corrected constructor: field defaults (epsilon 0.1, leaky epsilon 0.025, win 1, lose 0, normalised inputs, no leaky learning), resting neurons, and a reported size equal to the number created |
| Competitive.CopyConfigAsWritten | src/org/simbrain/network/groups/Competitive.java:134-141 | As written, the copy constructor copies five parameters, and leaky learning falls back to its default of off |
| Competitive.LeakyLoserMoves | src/org/simbrain/network/groups/Competitive.java:196-205 | With leaky learning on, a losing neuron's strength changes |
| Competitive.CopiedLoserStays | src/org/simbrain/network/groups/Competitive.java:134-141 | In a copy made as written, the same losing neuron's strength stays put |
| Competitive.CopyConfig | src/org/simbrain/network/groups/Competitive.java:134-141 | Corrected copy constructor: the copy's parameters equal the original's |
| Competitive.CopyUpdatesAlike | src/org/simbrain/network/groups/Competitive.java:134-141 | A corrected copy updates exactly as the original does |
| KeyCodec.DigitsValueOfDigits | src/org/simbrain/world/odorworld/OdorWorldComponent.java:278 | Reading back the decimal digits of a natural number gives that number |
| KeyCodec.IntToString | src/org/simbrain/world/odorworld/OdorWorldComponent.java:278 | An index is rendered in standard decimal form: a non-negative index as digits without leading zeros (just `0` for zero), a negative one as `-` followed by digits that do not start with `0`; never the separator |
| KeyCodec.ParseInt | src/org/simbrain/world/odorworld/OdorWorldComponent.java:298 | Parsing succeeds only on a numeral: one or more digits, possibly after a single `+` or `-`. A numeral parses exactly when its value is in the `int` range, and then to that value with its sign |
| KeyCodec.ParseIntBoundaries | src/org/simbrain/world/odorworld/OdorWorldComponent.java:298 | The empty string, a lone sign, letters and a doubled sign do not parse. 2147483647 and -2147483648 parse, one past either does not, and a `+` sign and leading zeros are accepted |
| KeyCodec.ParseIntOfIntToString | src/org/simbrain/world/odorworld/OdorWorldComponent.java:278-298 | Parsing a rendered index gives back the same index |
| KeyCodec.Pieces | src/org/simbrain/world/odorworld/OdorWorldComponent.java:287 | Splitting yields at least one piece, and no piece contains the separator |
| KeyCodec.JoinPieces | src/org/simbrain/world/odorworld/OdorWorldComponent.java:287 | Joining the pieces with the separator gives back the key |
| KeyCodec.PiecesOfPrefix | src/org/simbrain/world/odorworld/OdorWorldComponent.java:287 | A separator-free prefix followed by the separator splits off as the first piece |
| KeyCodec.DropTrailingEmpty | src/org/simbrain/world/odorworld/OdorWorldComponent.java:287 | The result is a prefix of the pieces. It does not end with an empty piece, and only empty pieces were removed |
| KeyCodec.JavaSplit | src/org/simbrain/world/odorworld/OdorWorldComponent.java:287 | No segment contains the separator, and a key without a separator is its own single segment |
| KeyCodec.PiecesOfJoin | src/org/simbrain/world/odorworld/OdorWorldComponent.java:287 | Cutting a joined key at every separator gives back the joined segments, provided no segment contains the separator |
| KeyCodec.SplitOfJoin | src/org/simbrain/world/odorworld/OdorWorldComponent.java:287 | Splitting a key joined from at least two separator-free segments, the last one non-empty, gives back exactly those segments |
| KeyCodec.Encode | src/org/simbrain/world/odorworld/OdorWorldComponent.java:264-283 | An entity's key is its name. A sensor's key is `entity:sensor:id` and an effector's is `entity:effector:id`. A smell-sensor getter's key is `entity:smellSensorGetter:sensor:index`, with the index in decimal. Only an object of any other kind has no key (null) |
| KeyCodec.JoinThree | src/org/simbrain/world/odorworld/OdorWorldComponent.java:270 | Three segments joined with the separator read `a:b:c` |
| KeyCodec.JoinFour | src/org/simbrain/world/odorworld/OdorWorldComponent.java:279 | Four segments joined with the separator read `a:b:c:d` |
| KeyCodec.GetterKeyFormat | src/org/simbrain/world/odorworld/OdorWorldComponent.java:278-279 | A getter's segments joined read `entity:smellSensorGetter:sensor:index` |
| KeyCodec.Decode | src/org/simbrain/world/odorworld/OdorWorldComponent.java:286-304 | Decoding never yields an unrecognised object, and yields an entity exactly when the key has a single segment. A key that splits into a single segment, such as `abc` or `abc:` or `abc::`, names the entity called by that segment. A missing-segment failure means fewer than four segments, and a bad-index failure means a fourth segment that does not parse as an `int` |
| KeyCodec.DecodeSensorKey | src/org/simbrain/world/odorworld/OdorWorldComponent.java:267-294 | A sensor's key decodes to that sensor |
| KeyCodec.DecodeEffectorKey | src/org/simbrain/world/odorworld/OdorWorldComponent.java:272-296 | An effector's key decodes to that effector |
| KeyCodec.DecodeGetterKey | src/org/simbrain/world/odorworld/OdorWorldComponent.java:276-300 | A smell-sensor getter's key decodes to that getter, index included |
| KeyCodec.DecodeEncode | src/org/simbrain/world/odorworld/OdorWorldComponent.java:264-304 | Decoding the key of any object whose names contain no separator, and whose sensor or effector id is not empty, gives back the same object |
| KeyCodec.DecodeSensorIgnoresCase | src/org/simbrain/world/odorworld/OdorWorldComponent.java:293-294 | Any case variant of `sensor` in the kind segment names the same sensor |
| KeyCodec.DecodeEffectorIgnoresCase | src/org/simbrain/world/odorworld/OdorWorldComponent.java:295-296 | Any case variant of `effector` in the kind segment names the same effector |
| KeyCodec.DecodeGetterIgnoresCase | src/org/simbrain/world/odorworld/OdorWorldComponent.java:297-300 | Any case variant of `smellSensorGetter` in the kind segment names the same getter, index included |
| KeyCodec.DecodeUnknownKind | src/org/simbrain/world/odorworld/OdorWorldComponent.java:291-303 | Any key of two or more segments whose second segment matches none of the three kinds, ignoring case, decodes to null |
| KeyCodec.DecodeGetterBadIndex | src/org/simbrain/world/odorworld/OdorWorldComponent.java:297-298 | A key of four or more segments with the getter kind and a fourth segment that does not parse as an `int` fails with a bad index |
| KeyCodec.DecodeGetterBadIndexKey | src/org/simbrain/world/odorworld/OdorWorldComponent.java:297-298 | A getter key built from separator-free segments whose index segment does not parse fails with a bad index |
| KeyCodec.DecodeGetterBadIndexExamples | src/org/simbrain/world/odorworld/OdorWorldComponent.java:297-298 | The getter keys `e:smellSensorGetter:s:x` and `e:smellSensorGetter:s:2147483648` both fail with a bad index |
| KeyCodec.DecodeGetterWithoutIndex | src/org/simbrain/world/odorworld/OdorWorldComponent.java:297-298 | A getter key without its index segment fails with a missing segment |
| KeyCodec.DecodeSensorWithEmptyId | src/org/simbrain/world/odorworld/OdorWorldComponent.java:287-294 | A sensor key with an empty id loses that segment to the split and fails with a missing segment |
| TurningEffector.New | src/org/simbrain/world/odorworld/effectors/Turning.java:49-64 | A new effector stores the given direction and starts with amount 0 |
| TurningEffector.AddAmount | src/org/simbrain/world/odorworld/effectors/Turning.java:85-87 | Adding raises the amount by exactly the added value and keeps the direction |
| TurningEffector.SetAmount | src/org/simbrain/world/odorworld/effectors/Turning.java:94-96 | Setting overwrites the amount and keeps the direction |
| TurningEffector.SetDirection | src/org/simbrain/world/odorworld/effectors/Turning.java:108-110 | Setting the direction keeps the amount |
| TurningEffector.Update | src/org/simbrain/world/odorworld/effectors/Turning.java:67-70 | An update issues a turn of direction × amount, keeps the direction and leaves amount 0 |
| TurningEffector.AddAllAggregates | src/org/simbrain/world/odorworld/effectors/Turning.java:80-87 | After a sequence of adds, the amount has grown by the sum of the added values |
| TurningEffector.AddAmountCommutes | src/org/simbrain/world/odorworld/effectors/Turning.java:85-87 | The order of two adds does not matter |
| TurningEffector.TurnAfterAdds | src/org/simbrain/world/odorworld/effectors/Turning.java:61-87 | The first turn of a new effector is its direction times the total added |
| TurningEffector.SecondUpdateTurnsNothing | src/org/simbrain/world/odorworld/effectors/Turning.java:67-70 | A second update in a row turns by 0 and leaves the state as it was |
| TurningEffector.NewTurnsNothing | src/org/simbrain/world/odorworld/effectors/Turning.java:49-70 | A new effector turns by 0 until something is added |
| TurningEffector.SetAmountDiscardsAdds | src/org/simbrain/world/odorworld/effectors/Turning.java:85-96 | Setting the amount discards all earlier adds |
| TurningEffector.LeftAndRightOppose | src/org/simbrain/world/odorworld/effectors/Turning.java:34-37 | Left (1) and right (−1) effectors with the same amount turn by opposite angles, and left turns positively |
| HistogramData.SanityCheck | src/org/simbrain/plot/histogram/Histogram.java:355-367 | A request passes exactly when the series fit the palette and the bins are fewer than the width in pixels. Too many series is a state error, and otherwise too many bins is an argument error |
| HistogramData.PaletteCheckedFirst | src/org/simbrain/plot/histogram/Histogram.java:358-365 | When both limits are exceeded, the state error is the one thrown |
| HistogramData.DefaultLimits | src/org/simbrain/plot/histogram/Histogram.java:66-87 | With the defaults, at most 4 series and at most 499 bins are accepted |
| HistogramData.Insert | src/org/simbrain/plot/histogram/Histogram.java:375 | Inserting into a sorted series keeps it sorted and adds exactly the one value |
| HistogramData.SortValues | src/org/simbrain/plot/histogram/Histogram.java:375 | The result is ascending and a permutation of the input |
| HistogramData.Sort | src/org/simbrain/plot/histogram/Histogram.java:374-377 | Sorting leaves the series ascending and a permutation of itself, and marks the panel sorted |
| HistogramData.GetMinValue | src/org/simbrain/plot/histogram/Histogram.java:399-405 | Fails with a state error exactly when the panel is not marked sorted, and with an index error on an empty series. Otherwise it returns a value of the series, which is below every value when the series is sorted |
| HistogramData.GetMaxValue | src/org/simbrain/plot/histogram/Histogram.java:385-391 | Fails with a state error exactly when the panel is not marked sorted, and with an index error on an empty series. Otherwise it returns a value of the series, which is above every value when the series is sorted |
| HistogramData.MinMaxAfterSort | src/org/simbrain/plot/histogram/Histogram.java:374-405 | After sorting a non-empty series, both queries succeed and return values of the series that bound every value |
| HistogramData.QueriesNeedFreshSort | src/org/simbrain/plot/histogram/Histogram.java:215-222 | After the loop has run over at least one series, the panel is unsorted and both queries fail for any series. Once a series is sorted again, both answer for it if it is non-empty |
| HistogramData.CompleteMeansAll | src/org/simbrain/plot/histogram/Histogram.java:215-222 | The series loop's success condition holds exactly when every remaining series has at least one value and a name |
| HistogramData.DescribesAt | src/org/simbrain/plot/histogram/Histogram.java:215-222 | Each series the loop adds describes the input series at its own position: same name and bins, its values sorted, its min the first and its max the last of them |
| HistogramData.SeriesFrom | src/org/simbrain/plot/histogram/Histogram.java:215-222 | The series loop succeeds exactly when every remaining series has a value and a name, and it only ever fails with an index error. Each added series is the sorted input, with its first value as min and its last as max. The panel ends marked unsorted |
| HistogramData.CreateHistogram | src/org/simbrain/plot/histogram/Histogram.java:205-255 | Null data gives an empty chart. A failed check is caught and reported, with no chart and the panel unchanged. Of the failures modelled, only index errors escape, and a drawn chart never has more series than palette colours |
| HistogramData.CreateHistogramDrawsEverySeries | src/org/simbrain/plot/histogram/Histogram.java:205-235 | A valid request with at least one bin, and a name and a value for every series, draws every series sorted, with min and max taken from its values. It leaves the panel unsorted |
| HistogramData.MissingNameEscapes | src/org/simbrain/plot/histogram/Histogram.java:215-220 | A request that passes the checks but has fewer names than series escapes as an index error, even when every series has values |
| HistogramData.EmptySeriesEscapes | src/org/simbrain/plot/histogram/Histogram.java:211-251 | An empty series is not reported but escapes as an index error |

## Left out

- Neuron dynamics before the competition (`getNeuronGroup().updateNeurons()` and the linear neuron rule): activations are given as inputs to `Update`.
- Competitive.SummedIncomingWeights: `Neuron.getSummedIncomingWeights` is not part of this model, and is taken to be the plain signed sum of the fan-in strengths. Every "sums to 1" result of `NormalizeNeuron`, `NormalizeIncomingWeights`, `NormalizeAllIncomingWeights` and `Randomize` rests on that reading. It amounts to L1 normalisation only when the strengths are non-negative.
- `Neuron.getTotalInput` and `getNumberOfActiveInputs`: these classes are not part of this model. Total input is a given field of each neuron. "Has an active input" means some fan-in synapse has a source activation above 0.
- `Synapse.randomize()`: its bounds and random source are not part of this model. Each drawn value is a parameter `draw(neuron, synapse)`.
- Floating point: doubles are reals. Divisions that Java would turn into NaN or Infinity are excluded by requires clauses. They cover a zero total input when inputs are normalised, and a zero weight sum when normalising.
- Recurrent fan-in: sources are taken as fixed during one update. The model does not follow a source inside the group changing its activation mid-loop.
- Neuron layout, labels, the synapse-removed, synapse-changed and type-changed hooks, listener deregistration in `delete`, and the event object's contents: only the count of group-changed events is kept.
- The group-membership test `inFanInOfSomeNode`: modelled as "the synapse's target is a neuron of the group".
- Competitive.SynapseAdded: `RootNetwork.deleteSynapseShallow` is not part of this model. It is taken to remove every occurrence of the synapse from the root network's list and nothing else (`Without`). The parent group is modelled as a tag per synapse id; the synapse group object it points to is not.
- Initial neuron state (`Competitive.RestingNeuron`): the `Neuron` and `LinearNeuron` classes are not part of this model. A neuron the constructor creates is taken to start with activation 0, total input 0 and no fan-in.
- Competitive.NormalizeAllIncomingWeights: the ratio between any two strengths is proved for the division step (`DivideAllKeepsRatios`), and the function itself states the common scaling factor. A combined statement over the normalised group was not stated.
- KeyCodec.ParseInt: accepts only ASCII digits, whereas `Integer.parseInt` also accepts other Unicode decimal digits.
- KeyCodec.Decode: stops at the decoded object description. The world lookups that turn it into an object, or into null when the name is unknown, are left out.
- Case folding: `equalsIgnoreCase` is modelled by folding ASCII capitals and the long s (ſ, whose upper case is S). That is exact for comparisons with the three kind words, which contain neither i nor k.
- Null names and ids in `getKeyFromObject`, whose string concatenation would write `null`.
- Rotating the entity: `Update` returns the turn, not the new heading.
- Histogram charting: chart construction, colours, transparency, renderer settings, dialogs and stack traces. A caught exception is recorded as `Reported`, with no chart.
- Bin counts below 1: these are rejected inside the charting library, which is not part of this model.
- Java's `Arrays.sort` ordering of NaN and of −0.0 against 0.0: values are reals.
- A `dataNames` array longer than `data`: allowed and ignored, as in the source. A shorter one is an escaping index error.
- HistogramData.CreateHistogram: does not return the caller's rows or the panel state after an escaping error. In detail:
  - Names and rows cannot be null in the model. In the source a null `dataNames` array or a null row escapes as a `NullPointerException` (Histogram.java:216, 220).
  - An escaping index error carries no panel state in the model, and the two escape paths leave the flag differently in the source. An empty row escapes from `getMinValue` (lines 217 and 401) after `sort` has set `sortedFlag` (line 376), so the flag is left true. A `dataNames` array shorter than `data` escapes at line 220, after line 219 has cleared the flag, so the flag is left false (`MissingNameEscapes`). On both paths every row up to the failing one has been sorted in place.
  - On the drawn path the source sorts the caller's rows in place as well (lines 216 and 375), and `getData` shows them sorted afterwards. The model does not hand the rows back. Each drawn series' values are that row sorted (`CreateHistogramDrawsEverySeries`).

## Findings

| source | as written | input that shows it | evidently intended | confidence | as-written member | corrected member |
|---|---|---|---|---|---|---|
| src/org/simbrain/network/groups/Competitive.java:169-171 | The first neuron without an active input ends the whole update (`return`). | Two neurons: neuron 0 idle with activation 0, neuron 1 active and winning. Neuron 1 neither learns nor gets the win value. | Skip only that neuron (`continue`): the accompanying comment speaks of not updating that neuron's weights. | medium; not executed | Competitive.IdleNeuronBlocksLaterWinner | Competitive.UpdateSkippingIdle |
| src/org/simbrain/network/groups/Competitive.java:134-141 | The copy constructor does not copy `useLeakyLearning`. | Original with leaky learning on: its loser learns, but in the copy it does not. | Copy every learning parameter. | high; not executed | Competitive.CopiedLoserStays | Competitive.CopyConfig |
| src/org/simbrain/network/groups/Competitive.java:51-83 | The constructor never stores `numNeurons`, so `getNumNeurons` always answers 5. | A network built with 3 neurons reports 5. | Record the requested size. | high; not executed | Competitive.ConstructAsWrittenMisreportsSize | Competitive.Construct |

=== FILE: competitive.dfy ===
/** Winner-take-all competitive learning over one group of neurons
    (Competitive.java). One call of `Update` is one tick of the network:
    winner selection, forced activations and the learning rule, stopping at
    the first neuron without an active input. */
module Competitive {

  /*---------------------------------------------------------------------------
    Data model
  ---------------------------------------------------------------------------*/

  /** An incoming connection: the activation of its source neuron, held fixed
      for the duration of one update, and the connection's strength. */
  datatype Synapse = Synapse(source: real, strength: real)

  /** A neuron of the group: its activation (already recomputed by the
      neuron's own rule before the competition), its total input as read when
      the update reaches it, and its fan-in in list order. */
  datatype Neuron = Neuron(activation: real, totalInput: real, fanIn: seq<Synapse>)

  /** The learning parameters of a competitive group. */
  datatype Config = Config(
    epsilon: real,
    leakyEpsilon: real,
    winValue: real,
    loseValue: real,
    normalizeInputs: bool,
    useLeakyLearning: bool)

  /** The parent network's global flags that suppress activation and weight changes. */
  datatype Clamps = Clamps(clampNeurons: bool, clampWeights: bool)

  /** A competitive group: its parameters, the value its `numNeurons` field
      holds, and its neurons. */
  datatype Group = Group(config: Config, numNeurons: int, neurons: seq<Neuron>)

  const DefaultEpsilon: real := 0.1
  const DefaultNumNeurons: int := 5

  /** Field defaults: epsilon .1, win value 1, lose value 0, inputs normalised,
      no leaky learning, leaky epsilon a quarter of epsilon. */
  const DefaultConfig: Config := Config(DefaultEpsilon, DefaultEpsilon / 4.0, 1.0, 0.0, true, false)

  /** A neuron as the constructor creates it: at rest and without connections. */
  const RestingNeuron: Neuron := Neuron(0.0, 0.0, [])

  function Activations(ns: seq<Neuron>): (acts: seq<real>)
    ensures |acts| == |ns|
    ensures forall j :: 0 <= j < |ns| ==> acts[j] == ns[j].activation
  {
    seq(|ns|, j requires 0 <= j < |ns| => ns[j].activation)
  }

  /*---------------------------------------------------------------------------
    Winner selection
  ---------------------------------------------------------------------------*/

  predicate AllNonPositive(acts: seq<real>) {
    forall j :: 0 <= j < |acts| ==> acts[j] <= 0.0
  }

  /** Reference definition of the winner: index 0 when no activation is
      positive, otherwise the earliest index holding the largest activation. */
  predicate IsWinner(acts: seq<real>, w: nat) {
    if AllNonPositive(acts) then w == 0
    else
      && w < |acts|
      && (forall j :: 0 <= j < |acts| ==> acts[j] <= acts[w])
      && (forall j :: 0 <= j < w ==> acts[j] < acts[w])
  }

  /** What the winner loop knows once it has scanned `acts[..i]`. */
  predicate ScanState(acts: seq<real>, i: nat, max: real, winner: nat) {
    && i <= |acts|
    && if AllNonPositive(acts[..i]) then max == 0.0 && winner == 0
       else
         && winner < i
         && max == acts[winner]
         && (forall j :: 0 <= j < i ==> acts[j] <= max)
         && (forall j :: 0 <= j < winner ==> acts[j] < max)
  }

  /** The winner loop from position `i` on: a neuron takes over only when its
      activation is strictly greater than the running maximum. */
  function WinnerScan(acts: seq<real>, i: nat, max: real, winner: nat): (w: nat)
    requires ScanState(acts, i, max, winner)
    ensures IsWinner(acts, w)
    decreases |acts| - i
  {
    if i == |acts| then
      assert acts[..i] == acts;
      winner
    else
      assert acts[..i + 1] == acts[..i] + [acts[i]];
      if acts[i] > max then WinnerScan(acts, i + 1, acts[i], i)
      else WinnerScan(acts, i + 1, max, winner)
  }

  /** The winning index: the scan starts from a running maximum of 0 and index 0. */
  function Winner(acts: seq<real>): (w: nat)
    ensures IsWinner(acts, w)
    ensures |acts| > 0 ==> w < |acts|
  {
    assert acts[..0] == [];
    WinnerScan(acts, 0, 0.0, 0)
  }

  /** At most one index satisfies the reference definition, so the winner of
      an unchanged activation vector is always the same index. */
  lemma WinnerUnique(acts: seq<real>, a: nat, b: nat)
    requires IsWinner(acts, a) && IsWinner(acts, b)
    ensures a == b
  {
  }

  /** Ties go to the earliest index: a later equal activation never wins. */
  lemma WinnerTieBreak(acts: seq<real>, i: nat, j: nat)
    requires i < j < |acts| && acts[i] == acts[j]
    ensures Winner(acts) != j
  {
  }

  /*---------------------------------------------------------------------------
    The learning rule
  ---------------------------------------------------------------------------*/

  /** True when some incoming line carries a strictly positive source
      activation, i.e. the neuron's count of active inputs is nonzero. */
  predicate HasActiveInput(n: Neuron) {
    exists k :: 0 <= k < |n.fanIn| && n.fanIn[k].source > 0.0
  }

  /** The value the rule pulls a strength towards: the source activation,
      divided by the neuron's total input when inputs are normalised. */
  function Target(s: Synapse, normalizeInputs: bool, sumOfInputs: real): real
    requires normalizeInputs ==> sumOfInputs != 0.0
  {
    if normalizeInputs then s.source / sumOfInputs else s.source
  }

  predicate Between(v: real, a: real, b: real) {
    (a <= v <= b) || (b <= v <= a)
  }

  /** A fraction `p` of `d`, by a factor in [0, 1], lies between 0 and `d`. */
  lemma FractionBetween(t: real, d: real, p: real)
    requires 0.0 <= t <= 1.0 && p == t * d
    ensures Between(p, 0.0, d)
  {
    if d >= 0.0 {
      assert t * d <= 1.0 * d;
      assert 0.0 <= p <= d;
    } else {
      assert t * d >= 1.0 * d;
      var e := -d;
      assert t * e >= 0.0;
      assert t * d + t * e == t * (d + e) == 0.0;
      assert d <= p <= 0.0;
    }
  }

  /** The gap left after a step: `x` minus the new value is `1 - rate`
      times the old gap. */
  lemma StepGap(w: real, x: real, rate: real)
    ensures (w + rate * (x - w)) - x == (1.0 - rate) * (w - x)
  {
    assert rate * (x - w) == rate * x - rate * w;
    assert (1.0 - rate) * (w - x) == w - x - rate * w + rate * x;
  }

  /** The arithmetic of one learning step from `w` towards `x`: the gap to
      `x` shrinks by the factor `1 - rate`, and a rate in [0, 1] never
      overshoots. */
  lemma StepTowards(w: real, x: real, rate: real)
    ensures (w + rate * (x - w)) - x == (1.0 - rate) * (w - x)
    ensures 0.0 <= rate <= 1.0 ==> Between(w + rate * (x - w), w, x)
  {
    var d := x - w;
    var p := rate * d;
    if 0.0 <= rate <= 1.0 {
      FractionBetween(rate, d, p);
      assert Between(w + p, w, x);
    }
    StepGap(w, x, rate);
  }

  /** One application of the rule `w := w + rate * (x - w)`. */
  function Learn(s: Synapse, rate: real, normalizeInputs: bool, sumOfInputs: real): (r: Synapse)
    requires normalizeInputs ==> sumOfInputs != 0.0
    ensures r.source == s.source
    ensures var x := Target(s, normalizeInputs, sumOfInputs);
      r.strength - x == (1.0 - rate) * (s.strength - x)
    ensures 0.0 <= rate <= 1.0 ==>
      Between(r.strength, s.strength, Target(s, normalizeInputs, sumOfInputs))
  {
    var x := Target(s, normalizeInputs, sumOfInputs);
    StepTowards(s.strength, x, rate);
    s.(strength := s.strength + rate * (x - s.strength))
  }

  /** The rule applied to every incoming synapse of one neuron. */
  function LearnAll(fanIn: seq<Synapse>, rate: real, normalizeInputs: bool, sumOfInputs: real): (r: seq<Synapse>)
    requires normalizeInputs && |fanIn| > 0 ==> sumOfInputs != 0.0
    ensures |r| == |fanIn|
    ensures forall k :: 0 <= k < |fanIn| ==> r[k].source == fanIn[k].source
    ensures forall k :: 0 <= k < |fanIn| ==>
      var x := Target(fanIn[k], normalizeInputs, sumOfInputs);
      r[k].strength - x == (1.0 - rate) * (fanIn[k].strength - x)
    ensures 0.0 <= rate <= 1.0 ==> forall k :: 0 <= k < |fanIn| ==>
      Between(r[k].strength, fanIn[k].strength, Target(fanIn[k], normalizeInputs, sumOfInputs))
  {
    seq(|fanIn|, k requires 0 <= k < |fanIn| => Learn(fanIn[k], rate, normalizeInputs, sumOfInputs))
  }

  /** Whether processing this neuron divides a source activation by its total input. */
  predicate Divides(n: Neuron, isWinner: bool, cfg: Config, clamps: Clamps) {
    && cfg.normalizeInputs
    && !clamps.clampWeights
    && (isWinner || cfg.useLeakyLearning)
    && |n.fanIn| > 0
  }

  /** Division by a zero total input yields a non-finite double in the
      source; the model instead asks that such a division never happens. */
  predicate DivisorOk(n: Neuron, isWinner: bool, cfg: Config, clamps: Clamps) {
    Divides(n, isWinner, cfg, clamps) ==> n.totalInput != 0.0
  }

  /** The body of the weight-update loop for one neuron that has an active input. */
  function UpdateNeuron(n: Neuron, isWinner: bool, cfg: Config, clamps: Clamps): (r: Neuron)
    requires DivisorOk(n, isWinner, cfg, clamps)
    ensures r.totalInput == n.totalInput
    ensures |r.fanIn| == |n.fanIn|
    ensures forall k :: 0 <= k < |n.fanIn| ==> r.fanIn[k].source == n.fanIn[k].source
    ensures !clamps.clampNeurons ==> r.activation == (if isWinner then cfg.winValue else cfg.loseValue)
    ensures clamps.clampNeurons ==> r.activation == n.activation
    ensures clamps.clampWeights || (!isWinner && !cfg.useLeakyLearning) ==> r.fanIn == n.fanIn
    ensures !clamps.clampWeights && isWinner ==>
      forall k :: 0 <= k < |n.fanIn| ==>
        r.fanIn[k] == Learn(n.fanIn[k], cfg.epsilon, cfg.normalizeInputs, n.totalInput)
    ensures !clamps.clampWeights && !isWinner && cfg.useLeakyLearning ==>
      forall k :: 0 <= k < |n.fanIn| ==>
        r.fanIn[k] == Learn(n.fanIn[k], cfg.leakyEpsilon, cfg.normalizeInputs, n.totalInput)
  {
    var activation :=
      if clamps.clampNeurons then n.activation
      else if isWinner then cfg.winValue
      else cfg.loseValue;
    var fanIn :=
      if clamps.clampWeights then n.fanIn
      else if isWinner then LearnAll(n.fanIn, cfg.epsilon, cfg.normalizeInputs, n.totalInput)
      else if cfg.useLeakyLearning then LearnAll(n.fanIn, cfg.leakyEpsilon, cfg.normalizeInputs, n.totalInput)
      else n.fanIn;
    n.(activation := activation, fanIn := fanIn)
  }

  /*---------------------------------------------------------------------------
    One update
  ---------------------------------------------------------------------------*/

  /** The first index at or after `i` whose neuron has no active input, or
      `|ns|` when there is none. */
  function FirstIdleFrom(ns: seq<Neuron>, i: nat): (k: nat)
    requires i <= |ns|
    ensures i <= k <= |ns|
    ensures forall j :: i <= j < k ==> HasActiveInput(ns[j])
    ensures k < |ns| ==> !HasActiveInput(ns[k])
    decreases |ns| - i
  {
    if i == |ns| || !HasActiveInput(ns[i]) then i else FirstIdleFrom(ns, i + 1)
  }

  /** The neuron at which an update returns; every neuron before it is processed. */
  function FirstIdle(ns: seq<Neuron>): nat
    ensures FirstIdle(ns) <= |ns|
  {
    FirstIdleFrom(ns, 0)
  }

  /** The index `FirstIdleFrom` returns is the only one with its two properties. */
  lemma {:induction false} FirstIdleFromUnique(ns: seq<Neuron>, i: nat, k: nat)
    requires i <= k <= |ns|
    requires forall j :: i <= j < k ==> HasActiveInput(ns[j])
    requires k < |ns| ==> !HasActiveInput(ns[k])
    ensures FirstIdleFrom(ns, i) == k
    decreases k - i
  {
    if i < k {
      FirstIdleFromUnique(ns, i + 1, k);
    }
  }

  /** Replacing an active neuron does not move the first idle neuron after it. */
  lemma FirstIdleAfterReplace(ns: seq<Neuron>, i: nat, n: Neuron)
    requires i < |ns| && HasActiveInput(ns[i])
    ensures FirstIdleFrom(ns[i := n], i + 1) == FirstIdleFrom(ns, i)
  {
    var k0 := FirstIdleFrom(ns, i);
    assert k0 != i;
    FirstIdleFromUnique(ns[i := n], i + 1, k0);
  }

  predicate DivisorsOkFrom(ns: seq<Neuron>, i: nat, winner: nat, cfg: Config, clamps: Clamps)
    requires i <= |ns|
  {
    forall j :: i <= j < FirstIdleFrom(ns, i) ==> DivisorOk(ns[j], j == winner, cfg, clamps)
  }

  /** The weight-update loop from position `i` on, updating in place; the
      first neuron without an active input ends the whole update. */
  function UpdateFrom(ns: seq<Neuron>, i: nat, winner: nat, cfg: Config, clamps: Clamps): (r: seq<Neuron>)
    requires i <= |ns|
    requires DivisorsOkFrom(ns, i, winner, cfg, clamps)
    ensures |r| == |ns|
    ensures forall j :: 0 <= j < i ==> r[j] == ns[j]
    ensures forall j :: i <= j < FirstIdleFrom(ns, i) ==> r[j] == UpdateNeuron(ns[j], j == winner, cfg, clamps)
    ensures forall j :: FirstIdleFrom(ns, i) <= j < |ns| ==> r[j] == ns[j]
    decreases |ns| - i
  {
    if i == |ns| then ns
    else if !HasActiveInput(ns[i]) then ns
    else
      var ns' := ns[i := UpdateNeuron(ns[i], i == winner, cfg, clamps)];
      FirstIdleAfterReplace(ns, i, ns'[i]);
      UpdateFrom(ns', i + 1, winner, cfg, clamps)
  }

  /** The source leaves divisions by zero to produce non-finite values; the
      model requires every division the update performs to be by a nonzero
      total input. */
  predicate UpdateDefined(ns: seq<Neuron>, cfg: Config, clamps: Clamps) {
    DivisorsOkFrom(ns, 0, Winner(Activations(ns)), cfg, clamps)
  }

  /** One competitive update, as written: select the winner, then process
      neurons in order until the first one without an active input. */
  function Update(ns: seq<Neuron>, cfg: Config, clamps: Clamps): (r: seq<Neuron>)
    requires UpdateDefined(ns, cfg, clamps)
    ensures |r| == |ns|
    // the early exit: the idle neuron and everything after it is untouched
    ensures forall j :: FirstIdle(ns) <= j < |ns| ==> r[j] == ns[j]
    // processed neurons keep their sources and total input
    ensures forall j :: 0 <= j < |ns| ==>
      r[j].totalInput == ns[j].totalInput && |r[j].fanIn| == |ns[j].fanIn|
    ensures forall j, k :: 0 <= j < |ns| && 0 <= k < |ns[j].fanIn| ==>
      r[j].fanIn[k].source == ns[j].fanIn[k].source
    // forced activations
    ensures !clamps.clampNeurons ==>
      forall j :: 0 <= j < FirstIdle(ns) ==>
        r[j].activation == (if j == Winner(Activations(ns)) then cfg.winValue else cfg.loseValue)
    ensures clamps.clampNeurons ==>
      forall j :: 0 <= j < |ns| ==> r[j].activation == ns[j].activation
    // weights
    ensures clamps.clampWeights ==> forall j :: 0 <= j < |ns| ==> r[j].fanIn == ns[j].fanIn
    ensures !cfg.useLeakyLearning ==>
      forall j :: 0 <= j < |ns| && j != Winner(Activations(ns)) ==> r[j].fanIn == ns[j].fanIn
    ensures var w := Winner(Activations(ns));
      !clamps.clampWeights && w < FirstIdle(ns) ==>
        forall k :: 0 <= k < |ns[w].fanIn| ==>
          r[w].fanIn[k] == Learn(ns[w].fanIn[k], cfg.epsilon, cfg.normalizeInputs, ns[w].totalInput)
    ensures !clamps.clampWeights && cfg.useLeakyLearning ==>
      forall j, k :: 0 <= j < FirstIdle(ns) && j != Winner(Activations(ns)) && 0 <= k < |ns[j].fanIn| ==>
        r[j].fanIn[k] == Learn(ns[j].fanIn[k], cfg.leakyEpsilon, cfg.normalizeInputs, ns[j].totalInput)
  {
    UpdateFrom(ns, 0, Winner(Activations(ns)), cfg, clamps)
  }

  /** When the first neuron has no active input the update changes nothing
      at all, even for later neurons that do have active inputs. */
  lemma UpdateStopsAtIdleFirstNeuron(ns: seq<Neuron>, cfg: Config, clamps: Clamps)
    requires |ns| > 0 && !HasActiveInput(ns[0])
    ensures UpdateDefined(ns, cfg, clamps)
    ensures Update(ns, cfg, clamps) == ns
  {
  }

  /** Three neurons with one incoming line each, sources 0.2, 0.9 and 0.5,
      strengths 0.5, epsilon 0.1, no input normalisation and no leaky
      learning: the middle neuron wins and only its strength moves, to 0.54. */
  lemma UpdateThreeNeuronExample()
    ensures var cfg := Config(0.1, 0.025, 1.0, 0.0, false, false);
      var ns := [Neuron(0.1, 0.1, [Synapse(0.2, 0.5)]),
                 Neuron(0.45, 0.45, [Synapse(0.9, 0.5)]),
                 Neuron(0.25, 0.25, [Synapse(0.5, 0.5)])];
      UpdateDefined(ns, cfg, Clamps(false, false)) &&
      Update(ns, cfg, Clamps(false, false)) ==
        [Neuron(0.0, 0.1, [Synapse(0.2, 0.5)]),
         Neuron(1.0, 0.45, [Synapse(0.9, 0.54)]),
         Neuron(0.0, 0.25, [Synapse(0.5, 0.5)])]
  {
    var cfg := Config(0.1, 0.025, 1.0, 0.0, false, false);
    var ns := [Neuron(0.1, 0.1, [Synapse(0.2, 0.5)]),
               Neuron(0.45, 0.45, [Synapse(0.9, 0.5)]),
               Neuron(0.25, 0.25, [Synapse(0.5, 0.5)])];
    var acts := Activations(ns);
    assert acts == [0.1, 0.45, 0.25];
    assert IsWinner(acts, 1);
    WinnerUnique(acts, 1, Winner(acts));
    assert ns[0].fanIn[0].source > 0.0 && ns[1].fanIn[0].source > 0.0 && ns[2].fanIn[0].source > 0.0;
    assert FirstIdle(ns) == 3;
    var clamps := Clamps(false, false);
    var r := Update(ns, cfg, clamps);
    assert r[0] == UpdateNeuron(ns[0], false, cfg, clamps);
    assert r[1] == UpdateNeuron(ns[1], true, cfg, clamps);
    assert r[2] == UpdateNeuron(ns[2], false, cfg, clamps);
    assert r[1].fanIn[0] == Learn(ns[1].fanIn[0], 0.1, false, 0.45);
    assert r[1].fanIn == [Synapse(0.9, 0.54)];
  }

  /*---------------------------------------------------------------------------
    The update with idle neurons skipped rather than ending the update
  ---------------------------------------------------------------------------*/

  predicate SkippingDefinedFrom(ns: seq<Neuron>, i: nat, winner: nat, cfg: Config, clamps: Clamps) {
    forall j :: i <= j < |ns| && HasActiveInput(ns[j]) ==> DivisorOk(ns[j], j == winner, cfg, clamps)
  }

  /** The weight-update loop with `continue` in place of `return`: a neuron
      without an active input keeps its state and the loop goes on. */
  function UpdateSkippingIdleFrom(ns: seq<Neuron>, i: nat, winner: nat, cfg: Config, clamps: Clamps): (r: seq<Neuron>)
    requires i <= |ns|
    requires SkippingDefinedFrom(ns, i, winner, cfg, clamps)
    ensures |r| == |ns|
    ensures forall j :: 0 <= j < i ==> r[j] == ns[j]
    ensures forall j :: i <= j < |ns| ==>
      r[j] == if HasActiveInput(ns[j]) then UpdateNeuron(ns[j], j == winner, cfg, clamps) else ns[j]
    decreases |ns| - i
  {
    if i == |ns| then ns
    else if !HasActiveInput(ns[i]) then UpdateSkippingIdleFrom(ns, i + 1, winner, cfg, clamps)
    else UpdateSkippingIdleFrom(ns[i := UpdateNeuron(ns[i], i == winner, cfg, clamps)], i + 1, winner, cfg, clamps)
  }

  /** One update in which only the idle neurons themselves are left alone. */
  function UpdateSkippingIdle(ns: seq<Neuron>, cfg: Config, clamps: Clamps): (r: seq<Neuron>)
    requires SkippingDefinedFrom(ns, 0, Winner(Activations(ns)), cfg, clamps)
    ensures |r| == |ns|
    ensures forall j :: 0 <= j < |ns| && !HasActiveInput(ns[j]) ==> r[j] == ns[j]
    ensures forall j :: 0 <= j < |ns| ==> |r[j].fanIn| == |ns[j].fanIn|
    ensures !clamps.clampNeurons ==>
      forall j :: 0 <= j < |ns| && HasActiveInput(ns[j]) ==>
        r[j].activation == (if j == Winner(Activations(ns)) then cfg.winValue else cfg.loseValue)
    ensures var w := Winner(Activations(ns));
      !clamps.clampWeights && w < |ns| && HasActiveInput(ns[w]) ==>
        forall k :: 0 <= k < |ns[w].fanIn| ==>
          r[w].fanIn[k] == Learn(ns[w].fanIn[k], cfg.epsilon, cfg.normalizeInputs, ns[w].totalInput)
  {
    UpdateSkippingIdleFrom(ns, 0, Winner(Activations(ns)), cfg, clamps)
  }

  /** Without an idle neuron the two loops agree. */
  lemma UpdatesAgreeWithoutIdleNeuron(ns: seq<Neuron>, cfg: Config, clamps: Clamps)
    requires FirstIdle(ns) == |ns|
    requires UpdateDefined(ns, cfg, clamps)
    ensures SkippingDefinedFrom(ns, 0, Winner(Activations(ns)), cfg, clamps)
    ensures Update(ns, cfg, clamps) == UpdateSkippingIdle(ns, cfg, clamps)
  {
    var r, s := Update(ns, cfg, clamps), UpdateSkippingIdle(ns, cfg, clamps);
    assert forall j :: 0 <= j < |ns| ==> r[j] == s[j];
  }

  /** A neuron with no active input ahead of the winner keeps the winner from
      learning in the update as written, while the skipping loop lets it learn. */
  lemma IdleNeuronBlocksLaterWinner()
    ensures var ns := [Neuron(0.0, 0.0, [Synapse(0.0, 0.3)]),
                       Neuron(0.5, 0.5, [Synapse(1.0, 0.5)])];
      && UpdateDefined(ns, DefaultConfig, Clamps(false, false))
      && SkippingDefinedFrom(ns, 0, Winner(Activations(ns)), DefaultConfig, Clamps(false, false))
      && Update(ns, DefaultConfig, Clamps(false, false))[1] == ns[1]
      && UpdateSkippingIdle(ns, DefaultConfig, Clamps(false, false))[1] ==
           Neuron(1.0, 0.5, [Synapse(1.0, 0.65)])
  {
    var ns := [Neuron(0.0, 0.0, [Synapse(0.0, 0.3)]),
               Neuron(0.5, 0.5, [Synapse(1.0, 0.5)])];
    var acts := Activations(ns);
    assert acts == [0.0, 0.5];
    assert IsWinner(acts, 1);
    WinnerUnique(acts, 1, Winner(acts));
    assert !HasActiveInput(ns[0]);
    assert ns[1].fanIn[0].source > 0.0;
  }

  /*---------------------------------------------------------------------------
    Normalisation and randomisation
  ---------------------------------------------------------------------------*/

  /** Sum of the strengths of a neuron's incoming synapses. */
  function SummedIncomingWeights(fanIn: seq<Synapse>): real
  {
    if |fanIn| == 0 then 0.0 else fanIn[0].strength + SummedIncomingWeights(fanIn[1..])
  }

  /** Every strength divided by `f`, which divides their sum by `f`;
      nothing is divided when there is no synapse. */
  function DivideStrengths(fanIn: seq<Synapse>, f: real): (r: seq<Synapse>)
    requires |fanIn| > 0 ==> f != 0.0
    ensures |r| == |fanIn|
    ensures forall k :: 0 <= k < |fanIn| ==>
      r[k].source == fanIn[k].source && r[k].strength * f == fanIn[k].strength
    ensures f != 0.0 ==> SummedIncomingWeights(r) == SummedIncomingWeights(fanIn) / f
  {
    var r := seq(|fanIn|, k requires 0 <= k < |fanIn| => fanIn[k].(strength := fanIn[k].strength / f));
    if f != 0.0 then
      SumOfQuotients(fanIn, r, f);
      r
    else r
  }

  /** Division by a common factor distributes over a sum. */
  lemma DivideSum(a: real, b: real, f: real)
    requires f != 0.0
    ensures a / f + b / f == (a + b) / f
  {
    var x, y := a / f, b / f;
    assert x * f == a && y * f == b;
    assert (x + y) * f == a + b;
  }

  /** Strengths that are the quotients of others by `f` sum to the
      quotient of their sum. */
  lemma {:induction false} SumOfQuotients(fanIn: seq<Synapse>, d: seq<Synapse>, f: real)
    requires f != 0.0 && |d| == |fanIn|
    requires forall k :: 0 <= k < |fanIn| ==> d[k].strength == fanIn[k].strength / f
    ensures SummedIncomingWeights(d) == SummedIncomingWeights(fanIn) / f
  {
    if |fanIn| > 0 {
      SumOfQuotients(fanIn[1..], d[1..], f);
      DivideSum(fanIn[0].strength, SummedIncomingWeights(fanIn[1..]), f);
    }
  }

  /** One neuron's incoming strengths divided by their own sum. */
  function NormalizeNeuron(n: Neuron): (r: Neuron)
    requires |n.fanIn| > 0 ==> SummedIncomingWeights(n.fanIn) != 0.0
    ensures r.activation == n.activation && r.totalInput == n.totalInput
    ensures |r.fanIn| == |n.fanIn|
    ensures |n.fanIn| > 0 ==> SummedIncomingWeights(r.fanIn) == 1.0
    ensures forall k :: 0 <= k < |n.fanIn| ==>
      r.fanIn[k].source == n.fanIn[k].source &&
      r.fanIn[k].strength * SummedIncomingWeights(n.fanIn) == n.fanIn[k].strength
  {
    var f := SummedIncomingWeights(n.fanIn);
    if |n.fanIn| == 0 then n
    else
      var d := DivideStrengths(n.fanIn, f);
      assert SummedIncomingWeights(d) == f / f == 1.0;
      n.(fanIn := d)
  }

  predicate NormalizableEach(ns: seq<Neuron>) {
    forall i :: 0 <= i < |ns| && |ns[i].fanIn| > 0 ==> SummedIncomingWeights(ns[i].fanIn) != 0.0
  }

  /** Per-neuron normalisation: afterwards every neuron with incoming
      synapses has incoming strengths summing to 1, each strength scaled by
      its own neuron's former sum. */
  function NormalizeIncomingWeights(ns: seq<Neuron>): (r: seq<Neuron>)
    requires NormalizableEach(ns)
    ensures |r| == |ns|
    ensures forall i :: 0 <= i < |ns| ==>
      r[i].activation == ns[i].activation && |r[i].fanIn| == |ns[i].fanIn|
    ensures forall i :: 0 <= i < |ns| && |ns[i].fanIn| > 0 ==> SummedIncomingWeights(r[i].fanIn) == 1.0
    ensures forall i, k :: 0 <= i < |ns| && 0 <= k < |ns[i].fanIn| ==>
      r[i].fanIn[k].source == ns[i].fanIn[k].source &&
      r[i].fanIn[k].strength * SummedIncomingWeights(ns[i].fanIn) == ns[i].fanIn[k].strength
  {
    var r := seq(|ns|, i requires 0 <= i < |ns| && NormalizableEach(ns) => NormalizeNeuron(ns[i]));
    NormalizedEach(ns, r);
    r
  }

  /** Neuron by neuron, what `NormalizeNeuron` promises. */
  lemma NormalizedEach(ns: seq<Neuron>, r: seq<Neuron>)
    requires NormalizableEach(ns) && |r| == |ns|
    requires forall i :: 0 <= i < |ns| ==> r[i] == NormalizeNeuron(ns[i])
    ensures forall i :: 0 <= i < |ns| ==>
      r[i].activation == ns[i].activation && |r[i].fanIn| == |ns[i].fanIn|
    ensures forall i :: 0 <= i < |ns| && |ns[i].fanIn| > 0 ==> SummedIncomingWeights(r[i].fanIn) == 1.0
    ensures forall i, k :: 0 <= i < |ns| && 0 <= k < |ns[i].fanIn| ==>
      r[i].fanIn[k].source == ns[i].fanIn[k].source &&
      r[i].fanIn[k].strength * SummedIncomingWeights(ns[i].fanIn) == ns[i].fanIn[k].strength
  {
    forall i | 0 <= i < |ns|
      ensures r[i].activation == ns[i].activation && |r[i].fanIn| == |ns[i].fanIn|
      ensures |ns[i].fanIn| > 0 ==> SummedIncomingWeights(r[i].fanIn) == 1.0
      ensures forall k :: 0 <= k < |ns[i].fanIn| ==>
        r[i].fanIn[k].source == ns[i].fanIn[k].source &&
        r[i].fanIn[k].strength * SummedIncomingWeights(ns[i].fanIn) == ns[i].fanIn[k].strength
    {
      assert |ns[i].fanIn| > 0 ==> SummedIncomingWeights(ns[i].fanIn) != 0.0;
      NormalizedOne(ns[i], r[i]);
    }
  }

  /** One neuron's share of `NormalizedEach`. */
  lemma NormalizedOne(n: Neuron, m: Neuron)
    requires |n.fanIn| > 0 ==> SummedIncomingWeights(n.fanIn) != 0.0
    requires m == NormalizeNeuron(n)
    ensures m.activation == n.activation && |m.fanIn| == |n.fanIn|
    ensures |n.fanIn| > 0 ==> SummedIncomingWeights(m.fanIn) == 1.0
    ensures forall k :: 0 <= k < |n.fanIn| ==>
      m.fanIn[k].source == n.fanIn[k].source &&
      m.fanIn[k].strength * SummedIncomingWeights(n.fanIn) == n.fanIn[k].strength
  {
  }

  /** The group total, accumulated neuron by neuron as the group's
      `getSummedIncomingWeights` does. */
  function GroupSummedIncomingWeights(ns: seq<Neuron>): real
  {
    if |ns| == 0 then 0.0
    else SummedIncomingWeights(ns[0].fanIn) + GroupSummedIncomingWeights(ns[1..])
  }

  /** Every incoming synapse of the group, neuron after neuron. */
  function AllIncoming(ns: seq<Neuron>): seq<Synapse>
  {
    if |ns| == 0 then [] else ns[0].fanIn + AllIncoming(ns[1..])
  }

  /** The strengths of two fan-ins laid end to end sum to the sum of both. */
  lemma {:induction false} SumOfConcat(a: seq<Synapse>, b: seq<Synapse>)
    ensures SummedIncomingWeights(a + b) == SummedIncomingWeights(a) + SummedIncomingWeights(b)
  {
    if |a| > 0 {
      assert (a + b)[0] == a[0];
      assert (a + b)[1..] == a[1..] + b;
      SumOfConcat(a[1..], b);
    } else {
      assert a + b == b;
    }
  }

  /** The neuron-by-neuron total is the sum of every incoming strength of
      the group. */
  lemma {:induction false} GroupSumOfAllIncoming(ns: seq<Neuron>)
    ensures GroupSummedIncomingWeights(ns) == SummedIncomingWeights(AllIncoming(ns))
  {
    if |ns| > 0 {
      GroupSumOfAllIncoming(ns[1..]);
      SumOfConcat(ns[0].fanIn, AllIncoming(ns[1..]));
    }
  }

  predicate NoIncoming(ns: seq<Neuron>) {
    forall i :: 0 <= i < |ns| ==> |ns[i].fanIn| == 0
  }

  /** Every incoming strength of the group divided by the same factor,
      which divides the group total by that factor; activations and total
      inputs are kept. */
  function DivideAll(ns: seq<Neuron>, f: real): (r: seq<Neuron>)
    requires f != 0.0 || NoIncoming(ns)
    ensures |r| == |ns|
    ensures forall i :: 0 <= i < |ns| ==>
      r[i].activation == ns[i].activation && r[i].totalInput == ns[i].totalInput
      && |r[i].fanIn| == |ns[i].fanIn|
    ensures forall i, k :: 0 <= i < |ns| && 0 <= k < |ns[i].fanIn| ==>
      r[i].fanIn[k].source == ns[i].fanIn[k].source && r[i].fanIn[k].strength * f == ns[i].fanIn[k].strength
    ensures f != 0.0 ==> GroupSummedIncomingWeights(r) == GroupSummedIncomingWeights(ns) / f
  {
    var r := seq(|ns|, i requires 0 <= i < |ns| && (f != 0.0 || NoIncoming(ns)) =>
      ns[i].(fanIn := DivideStrengths(ns[i].fanIn, f)));
    DividedEach(ns, r, f);
    r
  }

  /** Neuron by neuron, what `DivideStrengths` promises, and the group total
      that follows. */
  lemma DividedEach(ns: seq<Neuron>, r: seq<Neuron>, f: real)
    requires f != 0.0 || NoIncoming(ns)
    requires |r| == |ns|
    requires forall i :: 0 <= i < |ns| ==> r[i] == ns[i].(fanIn := DivideStrengths(ns[i].fanIn, f))
    ensures forall i :: 0 <= i < |ns| ==>
      r[i].activation == ns[i].activation && r[i].totalInput == ns[i].totalInput
      && |r[i].fanIn| == |ns[i].fanIn|
    ensures forall i, k :: 0 <= i < |ns| && 0 <= k < |ns[i].fanIn| ==>
      r[i].fanIn[k].source == ns[i].fanIn[k].source && r[i].fanIn[k].strength * f == ns[i].fanIn[k].strength
    ensures f != 0.0 ==> GroupSummedIncomingWeights(r) == GroupSummedIncomingWeights(ns) / f
  {
    forall i | 0 <= i < |ns|
      ensures |r[i].fanIn| == |ns[i].fanIn|
      ensures forall k :: 0 <= k < |ns[i].fanIn| ==>
        r[i].fanIn[k].source == ns[i].fanIn[k].source && r[i].fanIn[k].strength * f == ns[i].fanIn[k].strength
      ensures f != 0.0 ==> SummedIncomingWeights(r[i].fanIn) == SummedIncomingWeights(ns[i].fanIn) / f
    {
      var d := DivideStrengths(ns[i].fanIn, f);
    }
    if f != 0.0 {
      GroupSumOfQuotients(ns, r, f);
    }
  }

  /** Neurons whose summed strengths are the quotients of others' by `f`
      have the quotient of their group total. */
  lemma {:induction false} GroupSumOfQuotients(ns: seq<Neuron>, d: seq<Neuron>, f: real)
    requires f != 0.0 && |d| == |ns|
    requires forall i :: 0 <= i < |ns| ==>
      SummedIncomingWeights(d[i].fanIn) == SummedIncomingWeights(ns[i].fanIn) / f
    ensures GroupSummedIncomingWeights(d) == GroupSummedIncomingWeights(ns) / f
  {
    if |ns| > 0 {
      GroupSumOfQuotients(ns[1..], d[1..], f);
      DivideSum(SummedIncomingWeights(ns[0].fanIn), GroupSummedIncomingWeights(ns[1..]), f);
    }
  }

  /** Group-wide normalisation: every incoming strength is divided by the one
      group total, after which that total is 1 (when it was nonzero). */
  function NormalizeAllIncomingWeights(ns: seq<Neuron>): (r: seq<Neuron>)
    requires GroupSummedIncomingWeights(ns) != 0.0 || NoIncoming(ns)
    ensures |r| == |ns|
    ensures GroupSummedIncomingWeights(ns) != 0.0 ==> GroupSummedIncomingWeights(r) == 1.0
    ensures forall i :: 0 <= i < |ns| ==>
      r[i].activation == ns[i].activation && |r[i].fanIn| == |ns[i].fanIn|
    ensures forall i, k :: 0 <= i < |ns| && 0 <= k < |ns[i].fanIn| ==>
      r[i].fanIn[k].source == ns[i].fanIn[k].source &&
      r[i].fanIn[k].strength * GroupSummedIncomingWeights(ns) == ns[i].fanIn[k].strength
  {
    var f := GroupSummedIncomingWeights(ns);
    var r := DivideAll(ns, f);
    if f != 0.0 then
      SelfQuotient(f);
      r
    else r
  }

  lemma SelfQuotient(x: real)
    requires x != 0.0
    ensures x / x == 1.0
  {
  }

  /** Two strengths scaled by one common factor keep their ratio. */
  lemma ScaledPair(p: Synapse, q: Synapse, p0: Synapse, q0: Synapse, f: real)
    requires p.strength * f == p0.strength
    requires q.strength * f == q0.strength
    ensures p.strength * q0.strength == p0.strength * q.strength
  {
    calc {
      p.strength * q0.strength;
      p.strength * (q.strength * f);
      (p.strength * f) * q.strength;
      p0.strength * q.strength;
    }
  }

  /** Dividing every strength by one factor keeps the ratio between any two. */
  lemma DivideAllKeepsRatios(ns: seq<Neuron>, f: real, i: nat, k: nat, j: nat, l: nat)
    requires f != 0.0
    requires i < |ns| && k < |ns[i].fanIn| && j < |ns| && l < |ns[j].fanIn|
    ensures var r := DivideAll(ns, f);
      r[i].fanIn[k].strength * ns[j].fanIn[l].strength == ns[i].fanIn[k].strength * r[j].fanIn[l].strength
  {
    var r := DivideAll(ns, f);
    ScaledPair(r[i].fanIn[k], r[j].fanIn[l], ns[i].fanIn[k], ns[j].fanIn[l], f);
  }

  /** Neuron `i` with each incoming strength replaced by a draw from the
      synapse's own random source, here the value `draw(i, k)` for synapse `k`. */
  function RandomizeNeuron(n: Neuron, i: nat, draw: (nat, nat) -> real): (r: Neuron)
    ensures r.activation == n.activation && r.totalInput == n.totalInput
    ensures |r.fanIn| == |n.fanIn|
    ensures forall k :: 0 <= k < |n.fanIn| ==> r.fanIn[k] == Synapse(n.fanIn[k].source, draw(i, k))
  {
    n.(fanIn := seq(|n.fanIn|, k requires 0 <= k < |n.fanIn| => n.fanIn[k].(strength := draw(i, k))))
  }

  /** Every neuron randomised, neuron `i` with the draws `draw(i, _)`. */
  function RandomizeIncomingWeights(ns: seq<Neuron>, draw: (nat, nat) -> real): (r: seq<Neuron>)
    ensures |r| == |ns|
    ensures forall i :: 0 <= i < |ns| ==>
      r[i].activation == ns[i].activation && r[i].totalInput == ns[i].totalInput
      && |r[i].fanIn| == |ns[i].fanIn|
    ensures forall i, k :: 0 <= i < |ns| && 0 <= k < |ns[i].fanIn| ==>
      r[i].fanIn[k] == Synapse(ns[i].fanIn[k].source, draw(i, k))
  {
    seq(|ns|, i requires 0 <= i < |ns| => RandomizeNeuron(ns[i], i, draw))
  }

  /** Sum of the values drawn for neuron `i`'s incoming synapses. */
  function DrawnSum(ns: seq<Neuron>, i: nat, draw: (nat, nat) -> real): real
    requires i < |ns|
  {
    SummedIncomingWeights(RandomizeNeuron(ns[i], i, draw).fanIn)
  }

  /** Randomise then normalise: every neuron with incoming synapses ends with
      incoming strengths summing to 1, proportional to the drawn values. */
  function Randomize(ns: seq<Neuron>, draw: (nat, nat) -> real): (r: seq<Neuron>)
    requires forall i :: 0 <= i < |ns| && |ns[i].fanIn| > 0 ==> DrawnSum(ns, i, draw) != 0.0
    ensures |r| == |ns|
    ensures forall i :: 0 <= i < |ns| ==> |r[i].fanIn| == |ns[i].fanIn|
    ensures forall i :: 0 <= i < |ns| && |ns[i].fanIn| > 0 ==> SummedIncomingWeights(r[i].fanIn) == 1.0
    ensures forall i, k :: 0 <= i < |ns| && 0 <= k < |ns[i].fanIn| ==>
      r[i].fanIn[k].source == ns[i].fanIn[k].source &&
      r[i].fanIn[k].strength * DrawnSum(ns, i, draw) == draw(i, k)
  {
    var drawn := RandomizeIncomingWeights(ns, draw);
    DrawnNormalizable(ns, draw);
    var r := NormalizeIncomingWeights(drawn);
    NormalizedDraws(ns, draw, r);
    r
  }

  /** The randomised group can be normalised: each neuron's drawn strengths
      sum to its drawn sum. */
  lemma DrawnNormalizable(ns: seq<Neuron>, draw: (nat, nat) -> real)
    requires forall i :: 0 <= i < |ns| && |ns[i].fanIn| > 0 ==> DrawnSum(ns, i, draw) != 0.0
    ensures NormalizableEach(RandomizeIncomingWeights(ns, draw))
  {
    var drawn := RandomizeIncomingWeights(ns, draw);
    forall i | 0 <= i < |drawn| && |drawn[i].fanIn| > 0
      ensures SummedIncomingWeights(drawn[i].fanIn) != 0.0
    {
      assert drawn[i] == RandomizeNeuron(ns[i], i, draw);
    }
  }

  /** Normalising the randomised group scales each drawn value by its
      neuron's drawn sum. */
  lemma NormalizedDraws(ns: seq<Neuron>, draw: (nat, nat) -> real, r: seq<Neuron>)
    requires NormalizableEach(RandomizeIncomingWeights(ns, draw))
    requires r == NormalizeIncomingWeights(RandomizeIncomingWeights(ns, draw))
    ensures forall i, k :: 0 <= i < |ns| && 0 <= k < |ns[i].fanIn| ==>
      r[i].fanIn[k].source == ns[i].fanIn[k].source &&
      r[i].fanIn[k].strength * DrawnSum(ns, i, draw) == draw(i, k)
  {
    var drawn := RandomizeIncomingWeights(ns, draw);
    forall i, k | 0 <= i < |ns| && 0 <= k < |ns[i].fanIn|
      ensures r[i].fanIn[k].source == ns[i].fanIn[k].source
      ensures r[i].fanIn[k].strength * DrawnSum(ns, i, draw) == draw(i, k)
    {
      assert drawn[i] == RandomizeNeuron(ns[i], i, draw);
      assert drawn[i].fanIn[k] == Synapse(ns[i].fanIn[k].source, draw(i, k));
      assert SummedIncomingWeights(drawn[i].fanIn) == DrawnSum(ns, i, draw);
    }
  }

  /*---------------------------------------------------------------------------
    Adopting newly created synapses
  ---------------------------------------------------------------------------*/

  /** A synapse as the network's event carries it: an identity and the
      neuron it ends at. */
  datatype SynapseRef = SynapseRef(id: nat, target: nat)

  /** The parent group a synapse records: none (it belongs to the root
      network) or the competitive group's synapse group. */
  datatype Owner = NoParentGroup | CompetitiveSynapseGroup

  /** The part of the network the adoption hook touches: the neurons of the
      group, the synapses the root network owns, the synapses the group owns,
      the parent group each synapse id records, and how many group-changed
      events have been fired. */
  datatype Wiring = Wiring(
    groupNeurons: set<nat>,
    rootSynapses: seq<SynapseRef>,
    groupSynapses: seq<SynapseRef>,
    parentGroup: map<nat, Owner>,
    groupChangedEvents: nat)

  /** `xs` without any occurrence of `s`, order kept. */
  function Without(xs: seq<SynapseRef>, s: SynapseRef): (r: seq<SynapseRef>)
    ensures forall x :: x in r <==> x in xs && x != s
    ensures multiset(r) == multiset(xs)[s := 0]
    ensures |r| <= |xs|
  {
    if |xs| == 0 then []
    else
      assert xs == [xs[0]] + xs[1..];
      if xs[0] == s then Without(xs[1..], s)
      else [xs[0]] + Without(xs[1..], s)
  }

  /** The hook run when a synapse is created anywhere in the network: a
      synapse ending in the group is moved from the root network to the end
      of the group's synapse list, records the group's synapse group as its
      parent, and one group-changed event is fired; any other synapse is
      ignored. */
  function SynapseAdded(w: Wiring, s: SynapseRef): (r: Wiring)
    ensures s.target !in w.groupNeurons ==> r == w
    ensures s.target in w.groupNeurons ==>
      && r.groupNeurons == w.groupNeurons
      && s !in r.rootSynapses
      && (forall x :: x != s ==> (x in r.rootSynapses <==> x in w.rootSynapses))
      && |r.groupSynapses| == |w.groupSynapses| + 1
      && r.groupSynapses[..|w.groupSynapses|] == w.groupSynapses
      && r.groupSynapses[|w.groupSynapses|] == s
      && r.groupChangedEvents == w.groupChangedEvents + 1
      && s.id in r.parentGroup && r.parentGroup[s.id] == CompetitiveSynapseGroup
      && (forall id :: id != s.id ==>
            (id in r.parentGroup <==> id in w.parentGroup)
            && (id in w.parentGroup ==> r.parentGroup[id] == w.parentGroup[id]))
  {
    if s.target in w.groupNeurons then
      Wiring(w.groupNeurons, Without(w.rootSynapses, s), w.groupSynapses + [s],
             w.parentGroup[s.id := CompetitiveSynapseGroup], w.groupChangedEvents + 1)
    else w
  }

  /** A synapse the group did not own yet appears in its list exactly once
      after adoption, and no longer in the root network's. */
  lemma AdoptedOnce(w: Wiring, s: SynapseRef)
    requires s.target in w.groupNeurons && s !in w.groupSynapses
    ensures multiset(SynapseAdded(w, s).groupSynapses)[s] == 1
    ensures s !in SynapseAdded(w, s).rootSynapses
  {
    var r := SynapseAdded(w, s);
    assert r.groupSynapses == w.groupSynapses + [s];
    assert multiset(w.groupSynapses)[s] == 0;
  }

  /*---------------------------------------------------------------------------
    Construction and copying
  ---------------------------------------------------------------------------*/

  function RestingNeurons(n: int): (r: seq<Neuron>)
    ensures |r| == (if n < 0 then 0 else n)
    ensures forall j :: 0 <= j < |r| ==> r[j] == RestingNeuron
  {
    seq(if n < 0 then 0 else n, _ => RestingNeuron)
  }

  /** The constructor as written: it creates the requested neurons with the
      field defaults, but never assigns the `numNeurons` field, which keeps 5. */
  function ConstructAsWritten(numNeurons: int): (g: Group)
    ensures g.config == DefaultConfig
    ensures |g.neurons| == (if numNeurons < 0 then 0 else numNeurons)
    ensures g.numNeurons == DefaultNumNeurons
  {
    Group(DefaultConfig, DefaultNumNeurons, RestingNeurons(numNeurons))
  }

  /** A network built with 3 neurons reports 5. */
  lemma ConstructAsWrittenMisreportsSize()
    ensures ConstructAsWritten(3).numNeurons != |ConstructAsWritten(3).neurons|
  {
  }

  /** The constructor with the size recorded: the reported number of neurons
      is the number created. */
  function Construct(numNeurons: int): (g: Group)
    ensures g.config == DefaultConfig
    ensures forall j :: 0 <= j < |g.neurons| ==> g.neurons[j] == RestingNeuron
    ensures numNeurons >= 0 ==> g.numNeurons == |g.neurons| == numNeurons
  {
    Group(DefaultConfig, numNeurons, RestingNeurons(numNeurons))
  }

  /** The copy constructor as written: five parameters are copied, but
      `useLeakyLearning` keeps its default of false. */
  function CopyConfigAsWritten(c: Config): (r: Config)
    ensures r.epsilon == c.epsilon && r.leakyEpsilon == c.leakyEpsilon
    ensures r.winValue == c.winValue && r.loseValue == c.loseValue
    ensures r.normalizeInputs == c.normalizeInputs
    ensures r.useLeakyLearning == DefaultConfig.useLeakyLearning
  {
    DefaultConfig.(epsilon := c.epsilon, leakyEpsilon := c.leakyEpsilon, loseValue := c.loseValue,
                   winValue := c.winValue, normalizeInputs := c.normalizeInputs)
  }

  /** Two neurons with active inputs, the first one winning. */
  function LeakyPair(): (ns: seq<Neuron>)
    ensures |ns| == 2 && Winner(Activations(ns)) == 0 && FirstIdle(ns) == 2
  {
    var ns := [Neuron(0.9, 0.9, [Synapse(0.9, 1.0)]), Neuron(0.4, 0.4, [Synapse(0.4, 1.0)])];
    assert Activations(ns) == [0.9, 0.4];
    assert IsWinner(Activations(ns), 0);
    WinnerUnique(Activations(ns), 0, Winner(Activations(ns)));
    assert ns[0].fanIn[0].source > 0.0 && ns[1].fanIn[0].source > 0.0;
    ns
  }

  /** With leaky learning the loser's strength moves from 1 towards 0.4. */
  lemma LeakyLoserMoves()
    ensures var cfg := Config(0.1, 0.025, 1.0, 0.0, false, true);
      && UpdateDefined(LeakyPair(), cfg, Clamps(false, false))
      && Update(LeakyPair(), cfg, Clamps(false, false))[1].fanIn != LeakyPair()[1].fanIn
  {
    var cfg := Config(0.1, 0.025, 1.0, 0.0, false, true);
    var ns := LeakyPair();
    var r := Update(ns, cfg, Clamps(false, false));
    assert r[1].fanIn[0] == Learn(ns[1].fanIn[0], 0.025, false, ns[1].totalInput);
    assert r[1].fanIn[0].strength != ns[1].fanIn[0].strength;
  }

  /** In a copy made by the constructor as written, the same loser's strength
      stays put: the copy has lost leaky learning. */
  lemma CopiedLoserStays()
    ensures var cfg := CopyConfigAsWritten(Config(0.1, 0.025, 1.0, 0.0, false, true));
      && UpdateDefined(LeakyPair(), cfg, Clamps(false, false))
      && Update(LeakyPair(), cfg, Clamps(false, false))[1].fanIn == LeakyPair()[1].fanIn
  {
  }

  /** The copy constructor with every parameter copied. */
  function CopyConfig(c: Config): (r: Config)
    ensures r == c
  {
    Config(c.epsilon, c.leakyEpsilon, c.winValue, c.loseValue, c.normalizeInputs, c.useLeakyLearning)
  }

  /** A copied network updates exactly as the original does. */
  lemma CopyUpdatesAlike(ns: seq<Neuron>, cfg: Config, clamps: Clamps)
    requires UpdateDefined(ns, cfg, clamps)
    ensures UpdateDefined(ns, CopyConfig(cfg), clamps)
    ensures Update(ns, CopyConfig(cfg), clamps) == Update(ns, cfg, clamps)
  {
  }
}

=== FILE: histogram.dfy ===
/** The data handling of the histogram panel: the checks made on a request
    for a chart, the in-place sort of each data series, and the min/max
    queries guarded by the panel's "sorted" flag. The chart itself is reduced
    to the series that would be handed to the charting library. */
module HistogramData {
  import opened Wrappers

  /** Default number of palette colours, and so of data series. */
  const DefaultNumDatasets: nat := 4
  /** Default preferred width of the panel in pixels. */
  const DefaultPrefWidth: int := 500

  /** The panel state the data handling reads and writes. */
  datatype Panel = Panel(palletLength: nat, prefWidth: int, sortedFlag: bool)

  /** A new panel: the default palette and width, nothing sorted yet. */
  const DefaultPanel: Panel := Panel(DefaultNumDatasets, DefaultPrefWidth, false)

  /** The exceptions the data handling throws. */
  datatype Failure = IllegalState | IllegalArgument | IndexOutOfBounds

  /** One series as handed to the charting library. */
  datatype Series = Series(name: string, values: seq<real>, bins: int, min: real, max: real)

  /** The outcome of a chart request that does not throw out of the panel:
      a chart of the given series, or a caught failure shown to the user
      (and no chart). */
  datatype Outcome = Drawn(series: seq<Series>) | Reported(failure: Failure)

  /** The panel after a chart request, with the outcome. */
  datatype Run = Run(panel: Panel, outcome: Outcome)

  /*---------------------------------------------------------------------------
    Input checks
  ---------------------------------------------------------------------------*/

  /** None when a request for `numSeries` series in `bins` bins may proceed,
      otherwise the failure thrown: too many series for the palette is an
      illegal state, too many bins for the width an illegal argument, and
      the palette is checked first. */
  function SanityCheck(p: Panel, bins: int, numSeries: nat): (r: Option<Failure>)
    ensures r.None? <==> numSeries <= p.palletLength && bins < p.prefWidth
    ensures r == Some(IllegalState) <==> numSeries > p.palletLength
    ensures r == Some(IllegalArgument) <==> numSeries <= p.palletLength && bins >= p.prefWidth
  {
    if numSeries > p.palletLength then Some(IllegalState)
    else if bins >= p.prefWidth then Some(IllegalArgument)
    else None
  }

  /** When both checks would fail, the palette failure is the one thrown. */
  lemma PaletteCheckedFirst(p: Panel, bins: int, numSeries: nat)
    requires numSeries > p.palletLength && bins >= p.prefWidth
    ensures SanityCheck(p, bins, numSeries) == Some(IllegalState)
  {
  }

  /** With the defaults: at most four series and at most 499 bins. */
  lemma DefaultLimits(bins: int, numSeries: nat)
    ensures SanityCheck(DefaultPanel, bins, numSeries).None? <==> numSeries <= 4 && bins <= 499
    ensures SanityCheck(DefaultPanel, 10, 5) == Some(IllegalState)
    ensures SanityCheck(DefaultPanel, 500, 4) == Some(IllegalArgument)
  {
  }

  /*---------------------------------------------------------------------------
    Sorting
  ---------------------------------------------------------------------------*/

  predicate Sorted(s: seq<real>) {
    forall i, j :: 0 <= i < j < |s| ==> s[i] <= s[j]
  }

  /** `x` placed into a sorted sequence before the first element not below it. */
  function Insert(x: real, s: seq<real>): (r: seq<real>)
    requires Sorted(s)
    ensures Sorted(r)
    ensures multiset(r) == multiset(s) + multiset{x}
    ensures forall k :: 0 <= k < |r| ==> r[k] == x || r[k] in s
  {
    if |s| == 0 then [x]
    else if x <= s[0] then [x] + s
    else
      var t := Insert(x, s[1..]);
      assert s == [s[0]] + s[1..];
      assert forall k :: 0 <= k < |t| ==> s[0] <= t[k];
      [s[0]] + t
  }

  /** An ascending arrangement of the values (insertion sort). */
  function SortValues(s: seq<real>): (r: seq<real>)
    ensures Sorted(r)
    ensures multiset(r) == multiset(s)
  {
    if |s| == 0 then []
    else
      assert s == [s[0]] + s[1..];
      Insert(s[0], SortValues(s[1..]))
  }

  /** `sort`: the series arranged in ascending order in place, and the panel
      marked as sorted. */
  function Sort(p: Panel, data: seq<real>): (r: (Panel, seq<real>))
    ensures r.0 == p.(sortedFlag := true)
    ensures Sorted(r.1) && multiset(r.1) == multiset(data)
  {
    (p.(sortedFlag := true), SortValues(data))
  }

  /*---------------------------------------------------------------------------
    Min and max
  ---------------------------------------------------------------------------*/

  /** `getMinValue`: the first value, provided the panel is marked sorted. */
  function GetMinValue(p: Panel, data: seq<real>): (r: Result<real, Failure>)
    ensures !p.sortedFlag <==> r == Err(IllegalState)
    ensures p.sortedFlag && |data| == 0 <==> r == Err(IndexOutOfBounds)
    ensures r.Ok? ==> r.value in data
    ensures r.Ok? && Sorted(data) ==> forall k :: 0 <= k < |data| ==> r.value <= data[k]
  {
    if !p.sortedFlag then Err(IllegalState)
    else if |data| == 0 then Err(IndexOutOfBounds)
    else Ok(data[0])
  }

  /** `getMaxValue`: the last value, provided the panel is marked sorted. */
  function GetMaxValue(p: Panel, data: seq<real>): (r: Result<real, Failure>)
    ensures !p.sortedFlag <==> r == Err(IllegalState)
    ensures p.sortedFlag && |data| == 0 <==> r == Err(IndexOutOfBounds)
    ensures r.Ok? ==> r.value in data
    ensures r.Ok? && Sorted(data) ==> forall k :: 0 <= k < |data| ==> data[k] <= r.value
  {
    if !p.sortedFlag then Err(IllegalState)
    else if |data| == 0 then Err(IndexOutOfBounds)
    else Ok(data[|data| - 1])
  }

  /** After sorting a non-empty series, min and max are values of the series
      that bound every value of it. */
  lemma MinMaxAfterSort(p: Panel, data: seq<real>)
    requires |data| > 0
    ensures var (q, s) := Sort(p, data);
      GetMinValue(q, s).Ok? && GetMaxValue(q, s).Ok?
      && GetMinValue(q, s).value in data && GetMaxValue(q, s).value in data
      && forall x :: x in data ==> GetMinValue(q, s).value <= x <= GetMaxValue(q, s).value
  {
    var (q, s) := Sort(p, data);
    assert |s| == |multiset(s)| == |multiset(data)| == |data|;
    assert s[0] in multiset(s) && s[|s| - 1] in multiset(s);
    forall x | x in data
      ensures s[0] <= x <= s[|s| - 1]
    {
      assert x in multiset(data);
      assert x in s;
    }
  }

  /*---------------------------------------------------------------------------
    Creating the chart
  ---------------------------------------------------------------------------*/

  /** `sr` is the series added for the values `row` under `name`: the values
      sorted, with the first as min and the last as max. */
  predicate Describes(sr: Series, name: string, row: seq<real>, bins: int) {
    sr.name == name && sr.bins == bins
    && Sorted(sr.values) && multiset(sr.values) == multiset(row)
    && |sr.values| > 0 && sr.min == sr.values[0] && sr.max == sr.values[|sr.values| - 1]
  }

  /** Every series from `i` on has a value and a name. */
  predicate Complete(data: seq<seq<real>>, names: seq<string>, i: nat)
    decreases |data| - i
  {
    i >= |data| || (|data[i]| > 0 && i < |names| && Complete(data, names, i + 1))
  }

  /** `Complete` holds exactly when every series from `i` on has a value and
      a name. */
  lemma {:induction false} CompleteMeansAll(data: seq<seq<real>>, names: seq<string>, i: nat)
    ensures Complete(data, names, i) <==> forall k :: i <= k < |data| ==> |data[k]| > 0 && k < |names|
    decreases |data| - i
  {
    if i < |data| {
      CompleteMeansAll(data, names, i + 1);
      if Complete(data, names, i) {
        forall k | i <= k < |data|
          ensures |data[k]| > 0 && k < |names|
        {
          if k > i {
            assert i + 1 <= k < |data|;
          }
        }
      } else if |data[i]| > 0 && i < |names| {
        var k :| i + 1 <= k < |data| && !(|data[k]| > 0 && k < |names|);
        assert i <= k < |data|;
      }
    }
  }

  /** `ss` are the series added for the rows from `i` on, in order. */
  predicate DescribesFrom(ss: seq<Series>, data: seq<seq<real>>, names: seq<string>, bins: int, i: nat)
    decreases |ss|
  {
    |ss| == 0
    || (i < |names| && i < |data| && Describes(ss[0], names[i], data[i], bins)
        && DescribesFrom(ss[1..], data, names, bins, i + 1))
  }

  /** The `k`-th series describes row `i + k`. */
  lemma {:induction false} DescribesAt(ss: seq<Series>, data: seq<seq<real>>, names: seq<string>, bins: int, i: nat, k: nat)
    requires DescribesFrom(ss, data, names, bins, i) && k < |ss|
    ensures i + k < |names| && i + k < |data| && Describes(ss[k], names[i + k], data[i + k], bins)
    decreases k
  {
    if k > 0 {
      DescribesAt(ss[1..], data, names, bins, i + 1, k - 1);
      assert ss[1..][k - 1] == ss[k];
    }
  }

  /** The series loop of `createHistogram` from series `i` on: sort, read min
      and max, reset the flag, and add the series under its name. An empty
      series or a missing name throws an index error; the flag protocol
      never lets a query fail for want of a sort. */
  function SeriesFrom(p: Panel, data: seq<seq<real>>, names: seq<string>, bins: int, i: nat)
    : (r: Result<(Panel, seq<Series>), Failure>)
    requires i <= |data|
    ensures r.Err? ==> r.error == IndexOutOfBounds
    ensures r.Ok? <==> Complete(data, names, i)
    ensures r.Ok? ==> r.value.0 == (if i < |data| then p.(sortedFlag := false) else p)
    ensures r.Ok? ==> |r.value.1| == |data| - i
    ensures r.Ok? ==> DescribesFrom(r.value.1, data, names, bins, i)
    decreases |data| - i
  {
    if i == |data| then Ok((p, []))
    else
      var (sorted, values) := Sort(p, data[i]);
      match GetMinValue(sorted, values)
      case Err(e) => Err(e)
      case Ok(min) =>
        match GetMaxValue(sorted, values)
        case Err(e) => Err(e)
        case Ok(max) =>
          var reset := sorted.(sortedFlag := false);
          if i >= |names| then Err(IndexOutOfBounds)
          else
            var tail := SeriesFrom(reset, data, names, bins, i + 1);
            if tail.Err? then Err(tail.error)
            else
              var head := Series(names[i], values, bins, min, max);
              assert Describes(head, names[i], data[i], bins);
              assert ([head] + tail.value.1)[1..] == tail.value.1;
              Ok((tail.value.0, [head] + tail.value.1))
  }

  /** `createHistogram` on the panel state: a null data set gives an empty
      chart; a failed check is caught and reported with no chart; otherwise
      every series is sorted and added. Err is an exception that escapes
      the panel. */
  function CreateHistogram(p: Panel, data: Option<seq<seq<real>>>, names: seq<string>, bins: int)
    : (r: Result<Run, Failure>)
    ensures data.None? ==> r == Ok(Run(p, Drawn([])))
    ensures data.Some? && SanityCheck(p, bins, |data.value|).Some? ==>
      r == Ok(Run(p, Reported(SanityCheck(p, bins, |data.value|).value)))
    ensures r.Err? ==> r.error == IndexOutOfBounds
    ensures r.Ok? && r.value.outcome.Drawn? ==> |r.value.outcome.series| <= p.palletLength
  {
    match data
    case None => Ok(Run(p, Drawn([])))
    case Some(rows) =>
      match SanityCheck(p, bins, |rows|)
      case Some(f) => Ok(Run(p, Reported(f)))
      case None =>
        match SeriesFrom(p, rows, names, bins, 0)
        case Err(IndexOutOfBounds) => Err(IndexOutOfBounds)
        case Err(f) => Ok(Run(p, Reported(f)))
        case Ok((after, series)) => Ok(Run(after, Drawn(series)))
  }

  /** A request that passes the checks, with at least one bin, a name and
      at least one value for every series, draws every series sorted, with
      its true min and max, and leaves the panel marked unsorted. */
  lemma CreateHistogramDrawsEverySeries(p: Panel, rows: seq<seq<real>>, names: seq<string>, bins: int)
    requires SanityCheck(p, bins, |rows|).None? && bins >= 1
    requires |names| >= |rows| && |rows| > 0
    requires forall k :: 0 <= k < |rows| ==> |rows[k]| > 0
    ensures var r := CreateHistogram(p, Some(rows), names, bins);
      r.Ok? && r.value.outcome.Drawn? && !r.value.panel.sortedFlag
      && |r.value.outcome.series| == |rows|
      && forall k :: 0 <= k < |rows| ==>
           Describes(r.value.outcome.series[k], names[k], rows[k], bins)
           && r.value.outcome.series[k].min in rows[k] && r.value.outcome.series[k].max in rows[k]
  {
    var r := SeriesFrom(p, rows, names, bins, 0);
    CompleteMeansAll(rows, names, 0);
    forall k | 0 <= k < |rows|
      ensures Describes(r.value.1[k], names[k], rows[k], bins)
      ensures r.value.1[k].min in rows[k] && r.value.1[k].max in rows[k]
    {
      DescribesAt(r.value.1, rows, names, bins, 0, k);
      var sr := r.value.1[k];
      assert sr.values[0] in multiset(sr.values);
      assert sr.values[|sr.values| - 1] in multiset(sr.values);
    }
  }

  /** After the series loop has run over at least one series the panel is
      marked unsorted, so neither query answers for any series until that
      series is sorted again; once it is, both answer for a non-empty one. */
  lemma QueriesNeedFreshSort(p: Panel, data: seq<seq<real>>, names: seq<string>, bins: int, values: seq<real>)
    requires |data| > 0 && Complete(data, names, 0)
    ensures var r := SeriesFrom(p, data, names, bins, 0);
      r.Ok?
      && GetMinValue(r.value.0, values) == Err(IllegalState)
      && GetMaxValue(r.value.0, values) == Err(IllegalState)
      && (|values| > 0 ==>
            var (q, s) := Sort(r.value.0, values);
            GetMinValue(q, s).Ok? && GetMaxValue(q, s).Ok?)
  {
    var r := SeriesFrom(p, data, names, bins, 0);
    var (q, s) := Sort(r.value.0, values);
    assert |s| == |multiset(s)| == |multiset(values)| == |values|;
  }

  /** A name array shorter than the data escapes as an index error, even
      when every series has values. */
  lemma MissingNameEscapes(p: Panel, rows: seq<seq<real>>, names: seq<string>, bins: int)
    requires SanityCheck(p, bins, |rows|).None?
    requires |names| < |rows|
    ensures CreateHistogram(p, Some(rows), names, bins) == Err(IndexOutOfBounds)
  {
    CompleteMeansAll(rows, names, 0);
    var k := |names|;
    assert 0 <= k < |rows| && !(|rows[k]| > 0 && k < |names|);
    assert !Complete(rows, names, 0);
  }

  /** An empty series escapes as an index error rather than being reported. */
  lemma EmptySeriesEscapes(p: Panel, rows: seq<seq<real>>, names: seq<string>, bins: int, k: nat)
    requires SanityCheck(p, bins, |rows|).None?
    requires k < |rows| && |rows[k]| == 0
    ensures CreateHistogram(p, Some(rows), names, bins) == Err(IndexOutOfBounds)
  {
    CompleteMeansAll(rows, names, 0);
  }
}

=== FILE: keycodec.dfy ===
/** The string keys the odor world gives its objects so that the workspace
    can name them (OdorWorldComponent.getKeyFromObject and getObjectFromKey).
    A key is an entity name, optionally followed by a kind and further
    segments, all separated by ':'. The world lookups themselves are not
    modelled: decoding yields a description of the object the key names. */
module KeyCodec {
  import opened Wrappers

  const Separator: char := ':'

  /** A Java `int`. */
  type Int32 = i: int | -0x8000_0000 <= i <= 0x7FFF_FFFF

  /** The objects a key can name, and every other kind of object. */
  datatype WorldObject =
    | Entity(name: string)
    | Sensor(entity: string, id: string)
    | Effector(entity: string, id: string)
    | SmellSensorGetter(entity: string, sensor: string, index: Int32)
    | Unrecognised

  /** Why decoding throws: a segment the key needs is missing (an array index
      out of bounds), or the getter index is not a number in range. */
  datatype KeyError = MissingSegment | BadIndex

  /*---------------------------------------------------------------------------
    Decimal integers, as `"" + i` writes them and Integer.parseInt reads them
  ---------------------------------------------------------------------------*/

  predicate IsDigit(c: char) {
    '0' <= c <= '9'
  }

  predicate AllDigits(s: string) {
    forall i :: 0 <= i < |s| ==> IsDigit(s[i])
  }

  function DigitChar(d: nat): (c: char)
    requires d <= 9
    ensures IsDigit(c) && c as int - '0' as int == d
  {
    ('0' as int + d) as char
  }

  /** The decimal digits of `n`, most significant first, without leading zeros. */
  function Digits(n: nat): (s: string)
    ensures |s| > 0 && AllDigits(s)
    ensures s == "0" <==> n == 0
    ensures s[0] != '0' || s == "0"
    decreases n
  {
    if n < 10 then [DigitChar(n)]
    else
      var high := Digits(n / 10);
      assert high != "0";
      (high + [DigitChar(n % 10)])
  }

  /** The number a string of decimal digits stands for. */
  function DigitsValue(s: string): nat
    requires AllDigits(s)
  {
    if |s| == 0 then 0
    else 10 * DigitsValue(s[..|s| - 1]) + (s[|s| - 1] as int - '0' as int)
  }

  lemma {:induction false} DigitsValueOfDigits(n: nat)
    ensures DigitsValue(Digits(n)) == n
    decreases n
  {
    if n >= 10 {
      var s := Digits(n);
      assert s[..|s| - 1] == Digits(n / 10);
      DigitsValueOfDigits(n / 10);
    }
  }

  /** An `int` rendered in decimal, with a leading '-' when negative. */
  function IntToString(i: Int32): (s: string)
    ensures |s| > 0 && Separator !in s
    ensures i >= 0 ==> AllDigits(s) && (s[0] != '0' || s == "0")
    ensures i < 0 ==> |s| > 1 && s[0] == '-' && AllDigits(s[1..]) && s[1] != '0'
  {
    if i < 0 then "-" + Digits(-(i as int)) else Digits(i)
  }

  /** What Integer.parseInt reads as a decimal `int`: at least one digit,
      possibly after a single '+' or '-'. */
  predicate Numeral(s: string) {
    (|s| > 0 && AllDigits(s))
    || (|s| > 1 && (s[0] == '+' || s[0] == '-') && AllDigits(s[1..]))
  }

  /** Integer.parseInt on decimal digits: None stands for the
      NumberFormatException thrown for anything but a numeral, and for a
      numeral whose value is outside the `int` range. */
  function ParseInt(s: string): (r: Option<Int32>)
    ensures r.Some? ==> Numeral(s)
    ensures |s| > 0 && AllDigits(s) ==>
      (r.Some? <==> DigitsValue(s) <= 0x7FFF_FFFF) && (r.Some? ==> r.value == DigitsValue(s))
    ensures |s| > 1 && s[0] == '+' && AllDigits(s[1..]) ==>
      (r.Some? <==> DigitsValue(s[1..]) <= 0x7FFF_FFFF) && (r.Some? ==> r.value == DigitsValue(s[1..]))
    ensures |s| > 1 && s[0] == '-' && AllDigits(s[1..]) ==>
      (r.Some? <==> DigitsValue(s[1..]) <= 0x8000_0000) && (r.Some? ==> r.value == -(DigitsValue(s[1..]) as int))
  {
    if |s| == 0 then None
    else
      var body := if s[0] == '-' || s[0] == '+' then s[1..] else s;
      if |body| == 0 || !AllDigits(body) then None
      else
        var v: int := if s[0] == '-' then -(DigitsValue(body) as int) else DigitsValue(body);
        if -0x8000_0000 <= v <= 0x7FFF_FFFF then Some(v) else None
  }

  /** Text that is not a numeral, and numerals just outside the `int` range,
      do not parse; the extreme values do. */
  lemma ParseIntBoundaries()
    ensures ParseInt("").None? && ParseInt("-").None? && ParseInt("+").None?
    ensures ParseInt("x").None? && ParseInt("1x").None? && ParseInt("+-1").None?
    ensures ParseInt("2147483647") == Some(0x7FFF_FFFF)
    ensures ParseInt("2147483648").None?
    ensures ParseInt("-2147483648") == Some(-0x8000_0000)
    ensures ParseInt("-2147483649").None?
    ensures ParseInt("+7") == Some(7) && ParseInt("007") == Some(7)
  {
    assert !IsDigit('x');
    assert !IsDigit('-');
    assert "007"[..2] == "00" && "00"[..1] == "0";
    UpperLimitDigits();
    LowerLimitDigits();
  }

  /** The upper `int` limit parses and one past it does not. */
  lemma UpperLimitDigits()
    ensures ParseInt("2147483647") == Some(0x7FFF_FFFF)
    ensures ParseInt("2147483648").None?
  {
    MaxIntDigits();
    assert "2147483647"[..9] == "214748364" && "2147483648"[..9] == "214748364";
  }

  /** The lower `int` limit parses and one past it does not. */
  lemma LowerLimitDigits()
    ensures ParseInt("-2147483648") == Some(-0x8000_0000)
    ensures ParseInt("-2147483649").None?
  {
    MaxIntDigits();
    assert "2147483648"[..9] == "214748364" && "2147483649"[..9] == "214748364";
    assert "-2147483648"[1..] == "2147483648" && "-2147483649"[1..] == "2147483649";
  }

  /** The value of the first nine digits of the `int` limits, digit by digit. */
  lemma MaxIntDigits()
    ensures DigitsValue("214748364") == 214748364
  {
    assert DigitsValue("2") == 2;
    assert "21"[..1] == "2";
    assert DigitsValue("21") == 21;
    assert "214"[..2] == "21";
    assert DigitsValue("214") == 214;
    assert "2147"[..3] == "214";
    assert DigitsValue("2147") == 2147;
    assert "21474"[..4] == "2147";
    assert DigitsValue("21474") == 21474;
    assert "214748"[..5] == "21474";
    assert DigitsValue("214748") == 214748;
    assert "2147483"[..6] == "214748";
    assert DigitsValue("2147483") == 2147483;
    assert "21474836"[..7] == "2147483";
    assert DigitsValue("21474836") == 21474836;
    assert "214748364"[..8] == "21474836";
  }

  /** Reading back a rendered `int` gives the same `int`. */
  lemma ParseIntOfIntToString(i: Int32)
    ensures ParseInt(IntToString(i)) == Some(i)
  {
    var s := IntToString(i);
    if i < 0 {
      var n: nat := -(i as int);
      assert s == "-" + Digits(n) && s[0] == '-';
      assert s[1..] == Digits(n);
      DigitsValueOfDigits(n);
    } else {
      assert s == Digits(i) && IsDigit(s[0]);
      DigitsValueOfDigits(i);
    }
  }

  /*---------------------------------------------------------------------------
    Splitting on the separator, as String.split(":") does
  ---------------------------------------------------------------------------*/

  function IndexOf(s: string, c: char): (i: nat)
    requires c in s
    ensures i < |s| && s[i] == c && c !in s[..i]
  {
    if s[0] == c then 0
    else
      var j := IndexOf(s[1..], c);
      assert s[1..][..j] == s[1..j + 1];
      j + 1
  }

  /** The pieces joined back together with the separator. */
  function Join(ps: seq<string>): string
    requires |ps| > 0
  {
    if |ps| == 1 then ps[0] else ps[0] + [Separator] + Join(ps[1..])
  }

  /** Every piece between separators, empty ones included. */
  function Pieces(s: string): (ps: seq<string>)
    ensures |ps| > 0
    ensures forall k :: 0 <= k < |ps| ==> Separator !in ps[k]
    decreases |s|
  {
    if Separator !in s then [s]
    else
      var i := IndexOf(s, Separator);
      [s[..i]] + Pieces(s[i + 1..])
  }

  /** Joining the pieces back with the separator gives the string again. */
  lemma {:induction false} JoinPieces(s: string)
    ensures Join(Pieces(s)) == s
    decreases |s|
  {
    if Separator in s {
      var i := IndexOf(s, Separator);
      var rest := Pieces(s[i + 1..]);
      JoinPieces(s[i + 1..]);
      assert ([s[..i]] + rest)[1..] == rest;
      assert s == s[..i] + [Separator] + s[i + 1..];
    }
  }

  /** The first separator of `a:b` is the one after `a`. */
  lemma {:induction false} IndexOfAfterPrefix(a: string, b: string)
    requires Separator !in a
    ensures IndexOf(a + [Separator] + b, Separator) == |a|
  {
    var s := a + [Separator] + b;
    if |a| > 0 {
      assert s[0] == a[0];
      assert s[1..] == a[1..] + [Separator] + b;
      IndexOfAfterPrefix(a[1..], b);
    }
  }

  /** A piece followed by the separator splits off as the first piece. */
  lemma PiecesOfPrefix(a: string, b: string)
    requires Separator !in a
    ensures Pieces(a + [Separator] + b) == [a] + Pieces(b)
  {
    var s := a + [Separator] + b;
    assert s[|a|] == Separator;
    IndexOfAfterPrefix(a, b);
    assert s[..|a|] == a;
    assert s[|a| + 1..] == b;
  }

  /** `ps` with its trailing empty strings removed. */
  function DropTrailingEmpty(ps: seq<string>): (r: seq<string>)
    ensures |r| <= |ps| && r == ps[..|r|]
    ensures |r| > 0 ==> r[|r| - 1] != ""
    ensures forall k :: |r| <= k < |ps| ==> ps[k] == ""
  {
    if |ps| == 0 then []
    else if ps[|ps| - 1] == "" then DropTrailingEmpty(ps[..|ps| - 1])
    else ps
  }

  /** String.split(":"): a string without a separator is its own single
      piece; otherwise the pieces, with trailing empty pieces dropped. */
  function JavaSplit(s: string): (ps: seq<string>)
    ensures forall k :: 0 <= k < |ps| ==> Separator !in ps[k]
    ensures Separator !in s ==> ps == [s]
  {
    if Separator !in s then [s] else DropTrailingEmpty(Pieces(s))
  }

  /*---------------------------------------------------------------------------
    Matching the kind segment regardless of case
  ---------------------------------------------------------------------------*/

  /** A character folded to lower case as far as comparisons with the kind
      words go: ASCII capitals, and the long s whose upper case is 'S'. */
  function FoldCase(c: char): char {
    if 'A' <= c <= 'Z' then (c as int + 32) as char
    else if c == 'ſ' then 's'
    else c
  }

  /** String.equalsIgnoreCase against one of the ASCII kind words. */
  predicate EqualsIgnoreCase(a: string, b: string) {
    |a| == |b| && forall i :: 0 <= i < |a| ==> FoldCase(a[i]) == FoldCase(b[i])
  }

  const SensorKind: string := "sensor"
  const EffectorKind: string := "effector"
  const GetterKind: string := "smellSensorGetter"

  /*---------------------------------------------------------------------------
    Encoding and decoding
  ---------------------------------------------------------------------------*/

  /** Three segments joined: `a:b:c`. */
  lemma JoinThree(a: string, b: string, c: string)
    ensures Join([a, b, c]) == a + [Separator] + b + [Separator] + c
  {
    assert [a, b, c][1..] == [b, c];
    assert [b, c][1..] == [c];
    assert Join([c]) == c;
    assert Join([b, c]) == b + [Separator] + c;
    assert a + [Separator] + (b + [Separator] + c) == a + [Separator] + b + [Separator] + c;
  }

  /** Four segments joined: `a:b:c:d`. */
  lemma JoinFour(a: string, b: string, c: string, d: string)
    ensures Join([a, b, c, d]) == a + [Separator] + b + [Separator] + c + [Separator] + d
  {
    assert [a, b, c, d][1..] == [b, c, d];
    JoinThree(b, c, d);
    assert a + [Separator] + (b + [Separator] + c + [Separator] + d)
        == a + [Separator] + b + [Separator] + c + [Separator] + d;
  }

  /** A getter's four segments joined: `entity:smellSensorGetter:sensor:index`. */
  lemma GetterKeyFormat(entity: string, sensor: string, index: string)
    ensures Join([entity, GetterKind, sensor, index])
         == entity + ":smellSensorGetter:" + sensor + ":" + index
  {
    JoinFour(entity, GetterKind, sensor, index);
    assert ":smellSensorGetter:" == [Separator] + GetterKind + [Separator];
    assert ":" == [Separator];
    assert entity + [Separator] + GetterKind + [Separator] + sensor + [Separator] + index
        == entity + ([Separator] + GetterKind + [Separator]) + sensor + [Separator] + index;
  }

  /** The key of an object, or None (Java's null) for an object of any
      other kind: an entity's name, or the owning entity's name followed by
      the kind and the object's own segments. */
  function Encode(o: WorldObject): (r: Option<string>)
    ensures r.None? <==> o.Unrecognised?
    ensures o.Entity? ==> r == Some(o.name)
    ensures o.Sensor? ==> r == Some(o.entity + ":sensor:" + o.id)
    ensures o.Effector? ==> r == Some(o.entity + ":effector:" + o.id)
    ensures o.SmellSensorGetter? ==>
      r == Some(o.entity + ":smellSensorGetter:" + o.sensor + ":" + IntToString(o.index))
  {
    match o
    case Entity(name) => Some(name)
    case Sensor(entity, id) =>
      JoinThree(entity, SensorKind, id);
      assert ":sensor:" == [Separator] + SensorKind + [Separator];
      assert entity + [Separator] + SensorKind + [Separator] + id
          == entity + ([Separator] + SensorKind + [Separator]) + id;
      Some(Join([entity, SensorKind, id]))
    case Effector(entity, id) =>
      JoinThree(entity, EffectorKind, id);
      assert ":effector:" == [Separator] + EffectorKind + [Separator];
      assert entity + [Separator] + EffectorKind + [Separator] + id
          == entity + ([Separator] + EffectorKind + [Separator]) + id;
      Some(Join([entity, EffectorKind, id]))
    case SmellSensorGetter(entity, sensor, index) =>
      var digits := IntToString(index);
      GetterKeyFormat(entity, sensor, digits);
      Some(Join([entity, GetterKind, sensor, digits]))
    case Unrecognised => None
  }

  /** The object a key names; Ok(None) stands for the null returned when the
      kind segment is none of the three kinds. */
  function Decode(key: string): (r: Result<Option<WorldObject>, KeyError>)
    ensures r.Ok? && r.value.Some? ==> !r.value.value.Unrecognised?
    ensures r.Ok? && r.value.Some? && r.value.value.Entity? <==> |JavaSplit(key)| == 1
    ensures Separator !in key ==> r == Ok(Some(Entity(key)))
    ensures |JavaSplit(key)| == 1 ==> r == Ok(Some(Entity(JavaSplit(key)[0])))
    ensures r == Err(MissingSegment) ==> |JavaSplit(key)| < 4
    ensures r == Err(BadIndex) ==> |JavaSplit(key)| >= 4 && ParseInt(JavaSplit(key)[3]).None?
  {
    var parts := JavaSplit(key);
    if |parts| == 0 then Err(MissingSegment)
    else if |parts| == 1 then Ok(Some(Entity(parts[0])))
    else if EqualsIgnoreCase(parts[1], SensorKind) then
      if |parts| < 3 then Err(MissingSegment) else Ok(Some(Sensor(parts[0], parts[2])))
    else if EqualsIgnoreCase(parts[1], EffectorKind) then
      if |parts| < 3 then Err(MissingSegment) else Ok(Some(Effector(parts[0], parts[2])))
    else if EqualsIgnoreCase(parts[1], GetterKind) then
      if |parts| < 4 then Err(MissingSegment)
      else match ParseInt(parts[3])
        case None => Err(BadIndex)
        case Some(index) => Ok(Some(SmellSensorGetter(parts[0], parts[2], index)))
    else Ok(None)
  }

  /** The objects whose key reads back as the same object: names and ids
      without the separator, and a sensor or effector id that is not empty
      (an empty last segment is dropped by the split). */
  predicate RoundTrips(o: WorldObject) {
    match o
    case Entity(name) => Separator !in name
    case Sensor(entity, id) => Separator !in entity && Separator !in id && id != ""
    case Effector(entity, id) => Separator !in entity && Separator !in id && id != ""
    case SmellSensorGetter(entity, sensor, _) => Separator !in entity && Separator !in sensor
    case Unrecognised => false
  }

  /** Splitting joined pieces that hold no separator gives the pieces back. */
  lemma {:induction false} PiecesOfJoin(ps: seq<string>)
    requires |ps| > 0 && forall k :: 0 <= k < |ps| ==> Separator !in ps[k]
    ensures Pieces(Join(ps)) == ps
  {
    if |ps| > 1 {
      PiecesOfJoin(ps[1..]);
      PiecesOfPrefix(ps[0], Join(ps[1..]));
      assert [ps[0]] + ps[1..] == ps;
    }
  }

  /** A key of several separator-free segments, the last not empty, splits
      into exactly those segments. */
  lemma SplitOfJoin(ps: seq<string>)
    requires |ps| > 1 && forall k :: 0 <= k < |ps| ==> Separator !in ps[k]
    requires ps[|ps| - 1] != ""
    ensures JavaSplit(Join(ps)) == ps
  {
    PiecesOfJoin(ps);
    var key := Join(ps);
    assert key == ps[0] + [Separator] + Join(ps[1..]);
    assert key[|ps[0]|] == Separator;
  }

  /** A sensor key decodes to that sensor. */
  lemma DecodeSensorKey(entity: string, id: string)
    requires RoundTrips(Sensor(entity, id))
    ensures Decode(Encode(Sensor(entity, id)).value) == Ok(Some(Sensor(entity, id)))
  {
    SplitOfJoin([entity, SensorKind, id]);
  }

  /** An effector key decodes to that effector. */
  lemma DecodeEffectorKey(entity: string, id: string)
    requires RoundTrips(Effector(entity, id))
    ensures Decode(Encode(Effector(entity, id)).value) == Ok(Some(Effector(entity, id)))
  {
    SplitOfJoin([entity, EffectorKind, id]);
    assert !EqualsIgnoreCase(EffectorKind, SensorKind);
  }

  /** A smell-sensor getter key decodes to that getter, index included. */
  lemma DecodeGetterKey(entity: string, sensor: string, index: Int32)
    requires RoundTrips(SmellSensorGetter(entity, sensor, index))
    ensures Decode(Encode(SmellSensorGetter(entity, sensor, index)).value)
         == Ok(Some(SmellSensorGetter(entity, sensor, index)))
  {
    SplitOfJoin([entity, GetterKind, sensor, IntToString(index)]);
    assert !EqualsIgnoreCase(GetterKind, SensorKind);
    assert !EqualsIgnoreCase(GetterKind, EffectorKind);
    ParseIntOfIntToString(index);
  }

  /** Decoding the key of an object gives back the same kind, names and index. */
  lemma DecodeEncode(o: WorldObject)
    requires RoundTrips(o)
    ensures Encode(o).Some? && Decode(Encode(o).value) == Ok(Some(o))
  {
    match o
    case Entity(name) =>
    case Sensor(entity, id) => DecodeSensorKey(entity, id);
    case Effector(entity, id) => DecodeEffectorKey(entity, id);
    case SmellSensorGetter(entity, sensor, index) => DecodeGetterKey(entity, sensor, index);
  }

  /** Folding never produces the separator from any other character. */
  lemma FoldCaseKeepsSeparator(c: char)
    ensures FoldCase(c) == Separator <==> c == Separator
  {
  }

  /** A segment equal to a kind word up to case holds no separator. */
  lemma KindWithoutSeparator(kind: string, word: string)
    requires EqualsIgnoreCase(kind, word) && Separator !in word
    ensures Separator !in kind
  {
    forall i | 0 <= i < |kind|
      ensures kind[i] != Separator
    {
      FoldCaseKeepsSeparator(kind[i]);
      FoldCaseKeepsSeparator(word[i]);
    }
  }

  /** The sensor kind is matched regardless of case: `e:SENSOR:x` names the
      same sensor as `e:sensor:x`. */
  lemma DecodeSensorIgnoresCase(entity: string, kind: string, id: string)
    requires Separator !in entity && Separator !in id && id != ""
    requires EqualsIgnoreCase(kind, SensorKind)
    ensures Decode(Join([entity, kind, id])) == Ok(Some(Sensor(entity, id)))
  {
    KindWithoutSeparator(kind, SensorKind);
    SplitOfJoin([entity, kind, id]);
  }

  /** The effector kind is matched regardless of case. */
  lemma DecodeEffectorIgnoresCase(entity: string, kind: string, id: string)
    requires Separator !in entity && Separator !in id && id != ""
    requires EqualsIgnoreCase(kind, EffectorKind)
    ensures Decode(Join([entity, kind, id])) == Ok(Some(Effector(entity, id)))
  {
    KindWithoutSeparator(kind, EffectorKind);
    SplitOfJoin([entity, kind, id]);
    assert |kind| != |SensorKind|;
  }

  /** The smell-sensor getter kind is matched regardless of case. */
  lemma DecodeGetterIgnoresCase(entity: string, kind: string, sensor: string, index: Int32)
    requires Separator !in entity && Separator !in sensor
    requires EqualsIgnoreCase(kind, GetterKind)
    ensures Decode(Join([entity, kind, sensor, IntToString(index)]))
         == Ok(Some(SmellSensorGetter(entity, sensor, index)))
  {
    KindWithoutSeparator(kind, GetterKind);
    SplitOfJoin([entity, kind, sensor, IntToString(index)]);
    assert |kind| != |SensorKind| && |kind| != |EffectorKind|;
    ParseIntOfIntToString(index);
  }

  /** A key of more than one segment whose kind is none of the three decodes
      to null, whatever the other segments hold. */
  lemma DecodeUnknownKind(key: string)
    requires |JavaSplit(key)| >= 2
    requires !EqualsIgnoreCase(JavaSplit(key)[1], SensorKind)
    requires !EqualsIgnoreCase(JavaSplit(key)[1], EffectorKind)
    requires !EqualsIgnoreCase(JavaSplit(key)[1], GetterKind)
    ensures Decode(key) == Ok(None)
  {
  }

  /** A getter key whose fourth segment is not an `int` numeral, or is one
      out of range, fails as Integer.parseInt does. */
  lemma DecodeGetterBadIndex(key: string)
    requires |JavaSplit(key)| >= 4 && EqualsIgnoreCase(JavaSplit(key)[1], GetterKind)
    requires ParseInt(JavaSplit(key)[3]).None?
    ensures Decode(key) == Err(BadIndex)
  {
    var kind := JavaSplit(key)[1];
    assert |kind| != |SensorKind| && |kind| != |EffectorKind|;
  }

  /** The same for a key built from its segments: `e:smellSensorGetter:s:x`
      and `e:smellSensorGetter:s:2147483648` are both rejected. */
  lemma DecodeGetterBadIndexKey(entity: string, sensor: string, index: string)
    requires Separator !in entity && Separator !in sensor && Separator !in index && index != ""
    requires ParseInt(index).None?
    ensures Decode(Join([entity, GetterKind, sensor, index])) == Err(BadIndex)
  {
    SplitOfJoin([entity, GetterKind, sensor, index]);
    assert |GetterKind| != |SensorKind| && |GetterKind| != |EffectorKind|;
  }

  /** Concrete instances: a letter and a value just past the `int` range in
      the index segment. */
  lemma DecodeGetterBadIndexExamples()
    ensures Decode(Join(["e", GetterKind, "s", "x"])) == Err(BadIndex)
    ensures Decode(Join(["e", GetterKind, "s", "2147483648"])) == Err(BadIndex)
  {
    ParseIntBoundaries();
    DecodeGetterBadIndexKey("e", "s", "x");
    DecodeGetterBadIndexKey("e", "s", "2147483648");
  }

  /** A getter key without its index segment cannot be decoded. */
  lemma DecodeGetterWithoutIndex(entity: string, sensor: string)
    requires Separator !in entity && Separator !in sensor && sensor != ""
    ensures Decode(Join([entity, GetterKind, sensor])) == Err(MissingSegment)
  {
    SplitOfJoin([entity, GetterKind, sensor]);
    assert !EqualsIgnoreCase(GetterKind, SensorKind);
    assert !EqualsIgnoreCase(GetterKind, EffectorKind);
  }

  /** A sensor key whose id is empty loses its last segment to the split and
      cannot be decoded. */
  lemma DecodeSensorWithEmptyId(entity: string)
    requires Separator !in entity
    ensures Decode(Join([entity, SensorKind, ""])) == Err(MissingSegment)
  {
    var key := Join([entity, SensorKind, ""]);
    PiecesOfJoin([entity, SensorKind, ""]);
    assert key == entity + [Separator] + Join([SensorKind, ""]);
    assert key[|entity|] == Separator;
    assert DropTrailingEmpty([entity, SensorKind, ""]) == [entity, SensorKind];
  }
}

=== FILE: turning.dfy ===
/** The turning effector of the odor world: turn amounts accumulate between
    updates, and each update turns the entity by direction times the
    accumulated amount and starts the next accumulation from zero. The
    geometry of the turn itself is left to the entity; here the turn is the
    update's output. */
module TurningEffector {

  /** Direction value for turning left. */
  const Left: real := 1.0
  /** Direction value for turning right. */
  const Right: real := -1.0

  /** The effector's state: the sign-carrying direction and the amount
      accumulated since the last update (radians). */
  datatype Turning = Turning(direction: real, amount: real)

  /** What an update does: the turn it issues and the state after it. */
  datatype Step = Step(turn: real, next: Turning)

  /** A new effector with the given direction and nothing accumulated. */
  function New(direction: real): (t: Turning)
    ensures t.direction == direction && t.amount == 0.0
  {
    Turning(direction, 0.0)
  }

  /** Adds to the accumulated amount; the direction is kept. */
  function AddAmount(t: Turning, a: real): (r: Turning)
    ensures r.direction == t.direction
    ensures r.amount - t.amount == a
  {
    t.(amount := t.amount + a)
  }

  /** Overwrites the accumulated amount; the direction is kept. */
  function SetAmount(t: Turning, a: real): (r: Turning)
    ensures r.direction == t.direction && r.amount == a
  {
    t.(amount := a)
  }

  /** Changes the direction; the accumulated amount is kept. */
  function SetDirection(t: Turning, d: real): (r: Turning)
    ensures r.amount == t.amount && r.direction == d
  {
    t.(direction := d)
  }

  /** Issues a turn of direction times amount and resets the amount. */
  function Update(t: Turning): (s: Step)
    ensures s.turn == t.direction * t.amount
    ensures s.next.direction == t.direction && s.next.amount == 0.0
  {
    Step(t.direction * t.amount, t.(amount := 0.0))
  }

  /** The sum of a sequence of amounts. */
  function Sum(amounts: seq<real>): real {
    if |amounts| == 0 then 0.0 else amounts[0] + Sum(amounts[1..])
  }

  /** Several `addAmount` calls in order. */
  function AddAll(t: Turning, amounts: seq<real>): (r: Turning)
    ensures r.direction == t.direction
    decreases |amounts|
  {
    if |amounts| == 0 then t else AddAll(AddAmount(t, amounts[0]), amounts[1..])
  }

  /** Successive adds aggregate: the amount grows by the sum of what was added. */
  lemma {:induction false} AddAllAggregates(t: Turning, amounts: seq<real>)
    ensures AddAll(t, amounts).amount == t.amount + Sum(amounts)
    decreases |amounts|
  {
    if |amounts| > 0 {
      AddAllAggregates(AddAmount(t, amounts[0]), amounts[1..]);
    }
  }

  /** Adding in a different order accumulates the same amount. */
  lemma AddAmountCommutes(t: Turning, a: real, b: real)
    ensures AddAmount(AddAmount(t, a), b) == AddAmount(AddAmount(t, b), a)
  {
  }

  /** The turn issued after a batch of adds on a fresh effector is the
      direction times the total added. */
  lemma TurnAfterAdds(direction: real, amounts: seq<real>)
    ensures Update(AddAll(New(direction), amounts)).turn == direction * Sum(amounts)
  {
    AddAllAggregates(New(direction), amounts);
  }

  /** Each update consumes the accumulated amount: a second update in a row
      turns by nothing. */
  lemma SecondUpdateTurnsNothing(t: Turning)
    ensures Update(Update(t).next).turn == 0.0
    ensures Update(Update(t).next).next == Update(t).next
  {
  }

  /** A new effector turns by nothing until something is added. */
  lemma NewTurnsNothing(direction: real)
    ensures Update(New(direction)).turn == 0.0
  {
  }

  /** Setting the amount discards whatever had been added before. */
  lemma SetAmountDiscardsAdds(t: Turning, amounts: seq<real>, a: real)
    ensures SetAmount(AddAll(t, amounts), a) == SetAmount(t, a)
  {
  }

  /** Left and right effectors with the same amount turn by opposite angles. */
  lemma LeftAndRightOppose(amount: real)
    ensures Update(SetAmount(New(Left), amount)).turn
         == -Update(SetAmount(New(Right), amount)).turn
    ensures amount > 0.0 ==> Update(SetAmount(New(Left), amount)).turn > 0.0
  {
  }
}

=== FILE: wrappers.dfy ===
/** Failure-carrying values shared by the other modules: `Option` stands for a
    Java reference that may be null, `Result` for a value or a thrown exception. */
module Wrappers {

  datatype Option<+T> = None | Some(value: T)

  datatype Result<+T, +E> = Ok(value: T) | Err(error: E)
}
